=== FILE: README.md ===
# Token dashboard core, modelled in Dafny

This project models the client-side core of a small ERC-20 dashboard. The
dashboard shows DAI and USDC balances on Sepolia, a transaction history, and
Mint / Transfer / Approve actions with optimistic feedback. The model covers
these parts:

- **`History`** (`history.dfy`): the event-history store.
  - Turns raw Transfer and Approval logs into typed events. Incomplete logs and
    logs not involving the wallet (compared case-insensitively) are dropped. A
    transfer from the zero address becomes a Mint.
  - Fixes the output layout: DAI transfers, DAI approvals, USDC transfers, USDC
    approvals.
  - Holds the confirmed `events` list and the `optimisticEvents` overlay, with
    the overlay's append and reset.
  - `CollectEvents` is the imperative loop nest, proved equal to the functional
    definition.
- **`TokenActions`** (`token_actions.dfy`): the balance store.
  - The initial state and the `fetchTokenBalances` state machine: the
    disconnected branch, loading, success and failure.
  - The precedence of the error message built from whatever was thrown.
  - Token selection and the transaction-state reset.
- **`ActionOrchestrator`** (`orchestrator.dfy`): the three handlers of the
  Quick Actions card.
  - Each run is a trace of store effects (`HandlerTrace`). The store afterwards
    is that trace replayed (`Replay`).
  - Submission, the receipt wait and the refetches succeed or fail according to
    an input, `ChainOutcomes`.
  - Also covers the routing of form objects to handlers, and the buttons'
    `disabled` and `tokenDecimals` props.
- **`ActionButton`** (`action_button.dfy`): the dialog button.
  - The input `step` string and a decimal reading of it.
  - The form change handlers and submit guards, the dialog's close-on-submit,
    and the case-insensitive choice of form.
- **`HistoryTable`** (`history_table.dfy`): the recent-transactions table.
  - The token filter, the display gating and the fetch-on-mount condition.
  - The action column filter, the empty-table message, and the retry view.
- **`TransactionInfo`** (`tx_info.dfy`): the transaction detail panel. It covers
  which rows appear, the badge, the explorer link, the abbreviated hash and the
  lookup's enabling condition.
- **`Charts`** (`charts.dfy`): the event-type and token-distribution
  aggregations of the statistics charts.
- **`TransactionsPage`** (`transactions_page.dfy`): the four-way filter of the
  transactions page and the Reset Filters button.
- **`Dashboard`** (`dashboard.dfy`): the older dashboard page.
  - The two `useOptimistic` balance reducers and the event-prepend reducer.
  - Its three handlers, and the status cell.
- **`Utils`** (`utils.dfy`): `middleEllipsis`.

Shared modules:

- `Tokens`: the token configuration and the `TokenEvent` record.
- `JsText`: the JavaScript string operations the code relies on. These are
  `toLowerCase` (on ASCII letters), `substring` with its clamping and argument swap,
  `includes`, `repeat`, truthiness, and `??` / `||`.
- `Seqs`: order-preserving `filter` and counting.

Conventions:

- Optional or absent values are `Option`.
- A thrown error is a datatype of the possible thrown shapes (`Thrown`).
- Chain I/O is an outcome parameter.
- `formatUnits`, `formatValueOnInputChange` and `Number` are function-typed
  parameters (`Formatter`, `InputFormatter`, `NumberOf`).

## Model

| member | source | states |
|---|---|---|
| History.ProcessTransfers | stores/slices/historySlice.ts:101-126 | at most one event per log; every event is Success, tagged with its token, keyed by its hash, involves the wallet, and is a Mint exactly when sent from the zero address |
| History.ProcessTransfersExactly | stores/slices/historySlice.ts:101-126 | an event is produced iff some complete transfer log involving the wallet (case-insensitively) yields it; incomplete or unrelated logs are skipped |
| History.ProcessApprovals | stores/slices/historySlice.ts:129-152 | at most one event per log; every event is a Success Approve whose from/to are owner/spender and which involves the wallet |
| History.ProcessApprovalsExactly | stores/slices/historySlice.ts:129-152 | an event is produced iff some complete approval log involving the wallet yields it |
| History.ProcessTransfersIsFilterMap | stores/slices/historySlice.ts:101-126 | the transfer loop yields exactly one event per kept log (complete and involving the wallet), in log order, and nothing else; its length is the number of kept logs |
| History.ProcessApprovalsIsFilterMap | stores/slices/historySlice.ts:129-152 | the approval loop yields exactly one event per kept log, in log order, and nothing else; its length is the number of kept logs |
| History.IngestEvents | stores/slices/historySlice.ts:65-153 | the list is DAI transfers, DAI approvals, USDC transfers, USDC approvals, each one event per kept log in log order; every ingested event is well formed for the wallet; the length is bounded by the log count; DAI events precede USDC events, and within a token transfers precede approvals |
| History.IngestEventsFollowsTokenOrder | stores/slices/historySlice.ts:9-20 | ingestion is the loop over the configured token order DAI then USDC |
| History.AppendTransfers | stores/slices/historySlice.ts:101-126 | the imperative transfer loop appends exactly the events the functional definition yields for that token's logs |
| History.AppendApprovals | stores/slices/historySlice.ts:129-152 | the imperative approval loop appends exactly the events the functional definition yields for that token's logs |
| History.CollectEvents | stores/slices/historySlice.ts:60-153 | the imperative nested loops compute exactly the ingested event list |
| History.FetchEvents | stores/slices/historySlice.ts:51-160 | never left loading; confirmed list and overlay equal afterwards; no wallet clears everything with no error; success stores exactly the events ingested from the fetched logs, with no error; failure blanks both lists and sets 'Failed to fetch events' |
| History.FetchEventsIdempotent | stores/slices/historySlice.ts:51-160 | fetching twice against the same chain outcome equals fetching once |
| History.SetOptimisticEvents | stores/slices/historySlice.ts:164-166 | the overlay grows by exactly the new event at its tail; everything else is unchanged |
| History.ResetOptimisticEvents | stores/slices/historySlice.ts:161-163 | the overlay becomes the confirmed list; nothing else changes |
| History.AppendAllExtends | stores/slices/historySlice.ts:164-166 | a run of appends extends the overlay by exactly those events in order and never touches the confirmed list |
| History.ResetUndoesAppends | stores/slices/historySlice.ts:161-166 | a reset undoes any run of appends, and resetting is idempotent |
| History.OverlayInvariant | stores/slices/historySlice.ts:45-166 | the initial state, append, reset and fetch all keep the overlay an extension of the confirmed list |
| TokenActions.InitialStateShape | stores/slices/tokenActionsSlice.ts:30-49 | DAI selected, both balances blank, loading and error-free, transaction state cleared |
| TokenActions.ErrorDetail | stores/slices/tokenActionsSlice.ts:111-121 | there is no detail only when the thrown value has no string to report; a string shortMessage wins over the message, and a non-string message is skipped |
| TokenActions.BalanceErrorMessage | stores/slices/tokenActionsSlice.ts:111-122 | the unknown-error text iff no applicable detail exists; otherwise the prefix followed by the first detail in precedence order |
| TokenActions.ShortMessagePrecedence | stores/slices/tokenActionsSlice.ts:116-121 | an object's string shortMessage wins over its message; a non-string message is ignored |
| TokenActions.Disconnected | stores/slices/tokenActionsSlice.ts:52-68 | without a wallet both balances read '0', not loading, no error; selection and transaction state untouched |
| TokenActions.BeginFetch | stores/slices/tokenActionsSlice.ts:70-73 | both tokens loading with errors cleared, previous balance strings kept |
| TokenActions.FetchTokenBalances | stores/slices/tokenActionsSlice.ts:51-129 | no outcome leaves a token loading; success stores both formatted balances with their decimals; failure reports the derived message and marks both tokens 'Failed' while keeping the old balances |
| TokenActions.FailedFetchKeepsBalances | stores/slices/tokenActionsSlice.ts:124-127 | a failed read never blanks a previously shown balance |
| TokenActions.FetchSuccessForgetsPast | stores/slices/tokenActionsSlice.ts:95-108 | a successful fetch depends only on the chain values, not on the balances held before |
| TokenActions.SetSelectedToken | stores/slices/tokenActionsSlice.ts:130-135 | only the selected token changes |
| TokenActions.ResetTransactionState | stores/slices/tokenActionsSlice.ts:136-145 | the transaction state is cleared; selection and balances are unchanged |
| TokenActions.ResetTransactionStateIdempotent | stores/slices/tokenActionsSlice.ts:130-145 | resetting twice is resetting once, and it commutes with selecting a token |
| ActionOrchestrator.HandlerTrace | components/ActionButtonsCard.tsx:49-169 | every path ends by clearing the pending flag; mint/transfer raise it first, approve never does; no hash means no optimistic change; a hash means exactly one pending event keyed by it and the action's delta; overlays reset iff any error; refetches only after a receipt with a wallet, approve refetching events only; receipt before refetches, balances before events, pending event before the receipt wait |
| ActionOrchestrator.PendingEvent | components/ActionButtonsCard.tsx:62-72 | the optimistic event is Pending, for the action's token and type, sent from the wallet, and keyed by the submission hash, never by the temporary id |
| ActionOrchestrator.Execute | components/ActionButtonsCard.tsx:49-169 | a run performs exactly the effects of the handler trace, and whatever the outcome the handled token is not pending afterwards |
| ActionOrchestrator.ErrorRollsBack | components/ActionButtonsCard.tsx:80-84 | on any error both overlays end at the confirmed state and the confirmed events and balances are unchanged |
| ActionOrchestrator.ExecuteKeepsConsistent | components/ActionButtonsCard.tsx:63-83 | no run marks an event Failed, and the event overlay stays an extension of the confirmed list |
| ActionOrchestrator.SuccessConverges | components/ActionButtonsCard.tsx:74-79 | after a receipt and a successful event refetch the overlay equals the freshly ingested list, all Success: no pending entry survives |
| ActionOrchestrator.OverlayAccumulates | components/ActionButtonsCard.tsx:62-79 | without a reset, replaying effects only appends their balance deltas to the overlay, in order; a balance refetch leaves the overlay alone |
| ActionOrchestrator.SuccessKeepsBalanceDelta | components/ActionButtonsCard.tsx:62-79 | after a confirmed submission the balance overlay still holds the run's delta: one more entry for a mint or transfer, unchanged for an approve |
| ActionOrchestrator.RoutesExclusive | components/ActionButtonsCard.tsx:172-188 | no form object reaches two handlers, and each form's own shape reaches its handler |
| ActionOrchestrator.ButtonsDisabled | components/ActionButtonsCard.tsx:201 | a button is enabled iff the network is right, no transition runs, and the selected token is not pending |
| ActionOrchestrator.ButtonDecimals | components/ActionButtonsCard.tsx:202 | the decimals passed equal the selected token's configured precision |
| ActionOrchestrator.PendingDisablesButtons | components/ActionButtonsCard.tsx:54-56 | once a mint or transfer raises its flag, the buttons for that token are disabled |
| ActionOrchestrator.ButtonsEnabledAfterRun | components/ActionButtonsCard.tsx:84-88 | after any run on the right network with no transition, the buttons for the handled token are enabled again |
| ActionButton.GetStepValue | components/shared/ActionButton.tsx:52-57 | '1' for no decimals; otherwise '0.', d-1 zeros and a final '1' |
| ActionButton.StepValueParses | components/shared/ActionButton.tsx:52-57 | the step string reads as one unit in the last of max(d, 0) decimal places |
| ActionButton.EffectiveDecimals | components/shared/ActionButton.tsx:281 | an absent decimals prop counts as 0; a given one is used as is |
| ActionButton.CardStepMatchesToken | components/shared/ActionButton.tsx:278-281 | the step each card button uses is one unit of the token's smallest decimal place; without the prop the step is '1' |
| ActionButton.MintInput | components/shared/ActionButton.tsx:70-74 | a change formats the value into the amount, leaving the other fields |
| ActionButton.TransferInput | components/shared/ActionButton.tsx:131-139 | address stored verbatim, amount formatted, other names ignored |
| ActionButton.ApproveInput | components/shared/ActionButton.tsx:210-218 | address stored verbatim, allowance formatted, other names ignored |
| ActionButton.MintSubmit | components/shared/ActionButton.tsx:76-83 | submits {amount} iff the amount is non-empty |
| ActionButton.TransferSubmit | components/shared/ActionButton.tsx:141-148 | submits {address, amount} iff both are non-empty |
| ActionButton.ApproveSubmit | components/shared/ActionButton.tsx:220-227 | submits {address, allowance} iff both are non-empty |
| ActionButton.SubmittedFormsRoute | components/shared/ActionButton.tsx:76-227 | every object a form submits reaches exactly its own handler on the card |
| ActionButton.TypedTransferSubmits | components/shared/ActionButton.tsx:126-148 | typing an address and an amount into the empty form submits the address as typed and the amount as formatted |
| ActionButton.SubmitWrapper | components/shared/ActionButton.tsx:291-294 | the dialog closes; the data is delivered exactly when a handler is given |
| ActionButton.FormSubmit | components/shared/ActionButton.tsx:76-83 | a failed guard leaves the dialog as it was; a passing one goes through the wrapper |
| ActionButton.GuardKeepsDialog | components/shared/ActionButton.tsx:76-83 | an empty required field keeps the dialog open and delivers nothing; a complete form is delivered once and closes it |
| ActionButton.RenderForm | components/shared/ActionButton.tsx:300-331 | each of the three forms is chosen iff the lower-cased label is its name; any other label gets no form |
| ActionButton.RenderFormIgnoresCase | components/shared/ActionButton.tsx:300-331 | the choice ignores case, and the three card labels pick their own forms |
| HistoryTable.FilterByToken | components/TransactionHistoryTable.tsx:56-57 | a missing list stays missing; kept events come from the overlay and pass the filter; ALL returns the list unchanged |
| HistoryTable.FilterByTokenExactly | components/TransactionHistoryTable.tsx:56-57 | a one-token filter keeps exactly that token's events, every copy of each, in order; its length is the count of that token's events |
| HistoryTable.DisplayEvents | components/TransactionHistoryTable.tsx:59-60 | nothing on the wrong network or without a list; otherwise exactly the filtered list |
| HistoryTable.FetchOnMount | components/TransactionHistoryTable.tsx:62-69 | a mount fetch needs a non-empty wallet address and happens exactly when nothing is shown yet |
| HistoryTable.DisplayedRowsAreFilteredOverlay | components/TransactionHistoryTable.tsx:56-69 | displayed rows are overlay events passing the filter; a loaded list on the right network suppresses the mount fetch; the wrong network with a wallet triggers it |
| HistoryTable.UpdateActionFilter | components/TransactionHistoryTable.tsx:71-80 | filters on other columns are kept in order; ALL leaves no type filter; an action leaves exactly one type filter, holding its name, at the end |
| HistoryTable.UpdateActionFilterIdempotent | components/TransactionHistoryTable.tsx:71-80 | re-running with the same action changes nothing, and the last action chosen alone decides the filters |
| HistoryTable.NoResultsMessage | components/TransactionHistoryTable.tsx:175 | the generic message for all tokens, and for one token the message naming its symbol |
| HistoryTable.Content | components/TransactionHistoryTable.tsx:273-285 | the retry view iff the fetch error is truthy, disabled and labelled 'Retrying...' iff retrying; otherwise the table with the given rows, the filter's message and the loading flag |
| HistoryTable.CardForOverlay | components/TransactionHistoryTable.tsx:56-60 | on the right network a fetch error shows the retry view whatever is loaded; otherwise the rows are exactly the overlay's events of the selected token, and a token without events gets the empty table with the message naming it |
| HistoryTable.WrongNetworkShowsNoRows | components/TransactionHistoryTable.tsx:59-60 | on the wrong network the table is empty even with events loaded |
| HistoryTable.NoResultsMessageNamesFilter | components/TransactionHistoryTable.tsx:175 | two filters share an empty-table message only if they are the same filter |
| HistoryTable.ChooseAction | components/TransactionHistoryTable.tsx:71-80 | an action button sets the action and replaces the column filters by the effect's update; the token filter is untouched |
| HistoryTable.SyncSelectedToken | components/TransactionHistoryTable.tsx:82-87 | a change of the selected token overrides the token filter; nothing else changes |
| TransactionInfo.AbbreviateHash | components/TransactionInfoContent.tsx:129-131 | a hash of 8+ characters shows 17: first 8, '...', last 6; a hash of at most 6 characters appears twice around '...' (substring clamping) |
| TransactionInfo.AbbreviationShortens | components/TransactionInfoContent.tsx:127-131 | a hash longer than 17 characters is shown shorter, keeping its first 8 and last 6 characters |
| TransactionInfo.ToggleKeepsLink | components/TransactionInfoContent.tsx:120-139 | the toggle changes only the text and its label: the link is the explorer URL followed by the full hash either way, the full text is the hash, and the collapsed text keeps its first 8 characters and is shorter past 17 |
| TransactionInfo.RenderInfo | components/TransactionInfoContent.tsx:43-142 | no event iff the placeholder; destructive badge iff Failed; From row iff a transfer whose lookup has a sender; recipient and spender rows iff a transfer or approve whose lookup has a recipient; hash section and lookup section iff the event has a hash |
| TransactionInfo.QueryEnabled | components/TransactionInfoContent.tsx:36-41 | the lookup runs only for a selected event with a non-empty hash, and always for one |
| TransactionInfo.QueryMatchesSections | components/TransactionInfoContent.tsx:36-41 | the lookup runs exactly when the panel shows a hash section to hold its result, and no event shows both a recipient and a spender |
| Charts.ProcessEventTypes | components/charts/EventTypeSummaryChart.tsx:16-34 | three bars in the order Mint, Transfer, Approve, each holding the count of its type; all zero for no events |
| Charts.CountTypes | components/charts/EventTypeSummaryChart.tsx:17-27 | the three counters are the per-type counts of the events |
| Charts.TypeCountsSum | components/charts/EventTypeSummaryChart.tsx:23-27 | the three bars add up to the number of events |
| Charts.CountTokens | components/charts/TokenDistributionChart.tsx:24-30 | the two counters are the per-token counts |
| Charts.Distribution | components/charts/TokenDistributionChart.tsx:33-37 | slices with positive values only, DAI first; a token's slice is present iff its count is positive; empty iff both are zero |
| Charts.ProcessTokenData | components/charts/TokenDistributionChart.tsx:18-38 | the slices are the distribution of the per-token counts and add up to the number of events |
| Charts.NoDataIffEmpty | components/charts/TokenDistributionChart.tsx:40-44 | the 'No data' branch is taken exactly for an empty event list |
| TransactionsPage.FilterTransactions | app/transactions/page.tsx:65-74 | every listed transaction comes from the list and passes all four filters |
| TransactionsPage.FilterTransactionsExactly | app/transactions/page.tsx:65-74 | a transaction is listed iff it passes search, type, status and tab; every copy is kept, in order, so the length is the number of passing transactions; filtering again changes nothing |
| TransactionsPage.SearchProperties | app/transactions/page.tsx:66-68 | the empty search matches everything, and the search ignores case |
| TransactionsPage.ConflictingTypeAndTab | app/transactions/page.tsx:69-71 | a type select and a tab naming different types list nothing |
| TransactionsPage.ResetFilters | components/shared/FilterBar.tsx:58-62 | search, type and status go back to their defaults; the tab is untouched |
| TransactionsPage.ResetShowsEverything | components/shared/FilterBar.tsx:58-62 | after a reset on the 'all' tab every transaction is listed again, in order |
| TransactionsPage.InitialIsReset | app/transactions/page.tsx:59-62 | the initial filters are the reset filters on the 'all' tab |
| Utils.MiddleEllipsis | lib/utils.ts:8-15 | '' for the empty string; otherwise always '0x' first with '...' inside; in range, exactly the len characters after the prefix, '...', and the last len characters |
| Utils.MiddleEllipsisKeepsEnds | lib/utils.ts:14 | in range, two inputs abbreviate alike iff they agree on the characters shown |
| Dashboard.BalanceReducer | app/dashboard/page.tsx:31-43 | on a numeric balance, the balance changes by +amount for 'mint', -amount for 'transfer', and not at all for any other type |
| Dashboard.MintThenTransferCancels | app/dashboard/page.tsx:31-43 | on a numeric balance, a mint followed by a transfer of the same amount shows the starting balance |
| Dashboard.ReduceAllIsNetChange | app/dashboard/page.tsx:46-58 | on a numeric balance, folding the reducer over queued actions adds their net change to the base balance |
| Dashboard.ReduceAllOrderIndependent | app/dashboard/page.tsx:46-58 | on a numeric balance, the shown balance does not depend on the order of the queued actions |
| Dashboard.PageReducer | app/dashboard/page.tsx:31-58 | with JavaScript's operators: on a number it is the numeric reducer; on a string a mint appends the amount's text and a transfer converts to a number and subtracts; other types change nothing |
| Dashboard.ReducePageOnNumbers | app/dashboard/page.tsx:31-58 | from a numeric base balance (including the `?? 0` default) the page's reducer agrees with the numeric one on every queue |
| Dashboard.StringBaseMintConcatenates | app/dashboard/page.tsx:31-58 | from the string "100", a mint of 5 then a transfer of 5 shows 1000, and the reverse order shows 100 |
| Dashboard.RowOf | app/dashboard/page.tsx:62-67 | the new row's id is the event's own id or the temporary id, its hash the event's or 'pending'; every other field is the event's |
| Dashboard.PrependEvent | app/dashboard/page.tsx:61-70 | the new row comes first, with the defaults overridden by the event's own keys; the current rows follow unchanged |
| Dashboard.PrependAllKeepsCurrent | app/dashboard/page.tsx:61-70 | pending rows stack newest first and the confirmed rows stay at the end in order |
| Dashboard.TargetToken | app/dashboard/page.tsx:80-98 | USDC iff the token type is 'USDC' or falsy, DAI iff it is 'DAI'; any other type targets no balance |
| Dashboard.CallToken | app/dashboard/page.tsx:103 | the submission names the form's token type when it is truthy, 'USDC' otherwise |
| Dashboard.TargetMatchesCall | app/dashboard/page.tsx:80-103 | whenever a balance is updated optimistically, the submission names that same token |
| Dashboard.HandleMint | app/dashboard/page.tsx:77-115 | the optimistic update hits a balance iff the target is that token; a pending Mint row is added iff there is a target; with no target there is no optimistic effect at all; the submission is followed by both refetches |
| Dashboard.HandleTransfer | app/dashboard/page.tsx:117-157 | the same shape as mint, with the transfer delta and a row naming the recipient; with no target only the submission and the refetches remain |
| Dashboard.HandleApprove | app/dashboard/page.tsx:159-181 | one pending Approve row naming the spender, the submission, then an events refetch only; no balance changes |
| Dashboard.RefetchRegardless | app/dashboard/page.tsx:101-114 | a submission that throws leads to the same effects as one that succeeds |
| Dashboard.MintIsShownOptimistically | app/dashboard/page.tsx:77-99 | on numeric balances, the reducers applied to the mint's optimistic updates add the amount to the targeted balance, leave the other unchanged, and put a pending Mint row at the head of the table |
| Dashboard.NoTargetShowsNothing | app/dashboard/page.tsx:77-140 | a mint or transfer whose token type is neither 'USDC', 'DAI' nor falsy leaves the displayed balances and rows unchanged |
| Dashboard.FormsWithoutTokenTypeTargetUsdc | app/dashboard/page.tsx:222-224 | the page's forms send no token type, so mint and transfer always target USDC |
| Dashboard.StatusText | app/dashboard/page.tsx:250 | the status cell is never empty: the status itself when truthy, 'Success' otherwise |
| Dashboard.StatusYellow | app/dashboard/page.tsx:245-250 | the status cell is yellow exactly when its text reads 'Pending' |
| Dashboard.OptimisticRowsLookPending | app/dashboard/page.tsx:249-250 | handler rows read 'Pending' in yellow; a row with no status reads 'Success' in green |

## Left out

- Chain I/O is not modelled. This covers `getLogs`, `getBlockNumber`, `readContract`, `waitForTransactionReceipt`, `useTransaction` and the token actions `mintToken` / `transferToken` / `approveToken`. Their results are outcome parameters (`LogsOutcome`, `ReadOutcome`, `ChainOutcomes`). The block-window arithmetic (`fromBlock - 10000`, `- 99`) only chooses which logs the node returns, so it is not modelled.
- `formatUnits`, `formatValueOnInputChange` and `Number(...)` are not part of this model; they are function parameters.
- JsText.ToLower: lower-cases ASCII letters only. That is exact for the hex addresses the event history compares (`stores/slices/historySlice.ts:107-112`, `135-140`). The transactions-page search (`app/transactions/page.tsx:66-68`) lower-cases free text, though, and there JavaScript's `toLowerCase` would also fold non-ASCII letters, which the model leaves unchanged.
- ActionOrchestrator.SuccessConverges: only the event overlay converges to the confirmed list. The model's `balanceOverlay` is the log of `setOptimisticBalance` calls since the last `resetOptimisticBalance`. The card resets it only in its `catch` block, so a confirmed run leaves its delta in place and a balance refetch does not clear it (`ActionOrchestrator.SuccessKeepsBalanceDelta`). Whether the displayed balance returns to the fetched value is decided by the balance slice, which is not part of this model.
- Number formatting is not modelled. This covers the `toFixed(2)` amount, `formatGas`, and the gas and block rows of the detail panel. It is floating-point presentation only.
- The balance, mint, transfer, approve, error and network slices are not part of this model. These are `setOptimisticBalance`, the pending flags' store, `setError` and `isWrongNetwork`. The orchestrator records a balance-overlay call as a delta in a list, and `setError` as the stored message.
- Dashboard.BalanceReducer: works on real numbers through a `NumberOf` parameter and does not model JavaScript's floating-point rounding. The balances the page reads come from the balance slice, which is not part of this model, so whether they are numbers or strings is not visible here. If they are strings, as `tokenActionsSlice.ts` stores them, a mint concatenates instead of adding; `Dashboard.PageReducer` models that path and `Dashboard.StringBaseMintConcatenates` shows its effect. The numeric facts (`MintThenTransferCancels`, `ReduceAllIsNetChange`, `ReduceAllOrderIndependent`, `MintIsShownOptimistically`) hold only for a numeric base balance.
- ActionOrchestrator.HandlerTrace: the card takes `fetchTokenBalances` and the optimistic-balance calls from the balance slice (`useBalanceActions`), which is not part of this model. Its refetch is modelled by `TokenActions.FetchTokenBalances`, which catches every error itself, so the model assumes the card's balance refetch never throws. A throwing refetch would take the `catch` path and reset both overlays after a successful receipt; the reset-iff-error clause and `ErrorRollsBack` do not cover that case.
- TransactionsPage.ResetFilters: the transactions page imports its filter bar from `components/reusable/filter-bar`, which is not part of this model. The reset modelled is that of the shared `components/shared/FilterBar.tsx`.
- React's concurrency is not modelled. This covers `useTransition`, `startTransition` scheduling, effect timing and interleaving of two handler runs. Each handler runs as one sequential pass.
- `Date.now()` is not modelled; the temporary ids built from it are parameters.
- ActionOrchestrator.PendingEvent: an undefined wallet is rendered as "" in the event's `from` / `to`, not as `undefined`.
- The second argument of `fetchEvents(walletAddress, false)` is ignored by the store, so the model has no such argument.
- Console logging is not modelled.
- The hard-coded sample transactions list of the transactions page is not modelled; the filter is stated for every list.
- The generic `DataTable` wrapper's rendering and pagination are not modelled. The table's data, message, column filters and loading flag are.
- The event-type chart's `event.type in counts` check is a no-op for the three declared types. The model's closed `EventType` makes it always true.

## Behaviour worth knowing

The model follows the code as written, including these points, which a reader
might expect to work differently:

- A failed `fetchEvents` blanks both the confirmed list and the overlay, rather than keeping the last list (`History.FetchEvents`).
- No code path ever marks an event `Failed` (`ActionOrchestrator.ExecuteKeepsConsistent`).
- `setOptimisticEvents` appends at the tail, so new pending rows sit after the confirmed ones (`History.SetOptimisticEvents`).
- `eventsIsLoading` is never set to true by any modelled operation.
- `handleApprove` never raises a pending flag, yet clears one in its `finally` (`ActionOrchestrator.HandlerTrace`).
- The optimistic event's `id` is `txHash ?? tempId` after the `!txHash` throw, so it always equals the hash. The temporary id is unreachable.
- On the older dashboard page the reducers apply `+` and `-` to the store's balance as JavaScript does. On a string balance a mint appends the amount's text ("100" then mint 5 reads "1005"), and a later transfer turns that into a number ("1005" minus 5 is 1000), so the shown balance depends on the order of the queued actions (`Dashboard.StringBaseMintConcatenates`).
- On the older dashboard page the optimistic updates are made inside a synchronous `startOptimisticTransition` callback, and the submission is awaited after it. With `useOptimistic`, optimistic values are shown while their transition is pending, so they may be gone before the submission settles. The comments in the `catch` blocks (`app/dashboard/page.tsx:110-111`, `152-153`) assume they last until the refetch. The model applies the reducers to the updates and does not model how long React shows the result.
- On the older dashboard page, the buttons' forms never carry a token type, so the DAI branch of mint and transfer is unreachable (`Dashboard.FormsWithoutTokenTypeTargetUsdc`).

=== FILE: action_button.dfy ===
/** The action dialog of `components/shared/ActionButton.tsx`: the input step
    string, the three forms' input routing and submit guards, the submit
    wrapper that closes the dialog, and the choice of form by label. */
module ActionButton {
  import opened JsText
  import opened Tokens
  import opened ActionOrchestrator

  // ---------------------------------------------------------------------------
  // The step value and what it denotes

  /** `getStepValue(tokenDecimals)`: the smallest amount with that many decimals. */
  function GetStepValue(d: int): (r: string)
    ensures d <= 0 ==> r == "1"
    ensures d > 0 ==> |r| == d + 2 && r[..2] == "0." && r[|r| - 1] == '1'
    ensures d > 0 ==> forall k :: 2 <= k < |r| - 1 ==> r[k] == '0'
  {
    if d <= 0 then "1" else "0." + Repeat('0', d - 1) + "1"
  }

  /** A decimal literal as `mantissa / 10^scale`. */
  datatype Decimal = Decimal(mantissa: nat, scale: nat)

  predicate AllDigits(s: string) {
    forall k :: 0 <= k < |s| ==> '0' <= s[k] <= '9'
  }

  function DigitsValue(s: string): nat
    requires AllDigits(s)
    decreases |s|
  {
    if |s| == 0 then 0 else DigitsValue(s[..|s| - 1]) * 10 + (s[|s| - 1] as int - '0' as int)
  }

  /** Position of the first `.`, if any. */
  function DotIndex(s: string): (r: Option<nat>)
    ensures r.Some? ==> r.value < |s| && s[r.value] == '.'
    ensures r.None? ==> forall k :: 0 <= k < |s| ==> s[k] != '.'
    decreases |s|
  {
    if |s| == 0 then None
    else if s[0] == '.' then Some(0)
    else match DotIndex(s[1..])
      case None => None
      case Some(j) => Some(j + 1)
  }

  /** Reads `ddd` or `ddd.ddd` (digits on both sides of the point); anything else is `None`. */
  function ParseDecimal(s: string): Option<Decimal> {
    match DotIndex(s)
    case None => if |s| > 0 && AllDigits(s) then Some(Decimal(DigitsValue(s), 0)) else None
    case Some(i) =>
      var ip := s[..i];
      var fp := s[i + 1..];
      if |ip| > 0 && |fp| > 0 && AllDigits(ip + fp) then Some(Decimal(DigitsValue(ip + fp), |fp|)) else None
  }

  lemma {:induction false} ZerosValue(n: nat)
    ensures AllDigits(Repeat('0', n)) && DigitsValue(Repeat('0', n)) == 0
    decreases n
  {
    if n > 0 {
      var z := Repeat('0', n);
      assert z[..n - 1] == Repeat('0', n - 1);
      ZerosValue(n - 1);
    }
  }

  /** The step string reads back as `1 / 10^d`: one unit in the last decimal place. */
  lemma StepValueParses(d: int)
    ensures ParseDecimal(GetStepValue(d)) == Some(Decimal(1, if d <= 0 then 0 else d))
  {
    if d > 0 {
      var s := GetStepValue(d);
      var zeros := Repeat('0', d - 1);
      assert s == "0." + zeros + "1";
      assert s[1..][0] == '.';
      assert DotIndex(s) == Some(1);
      var ip := s[..1];
      var fp := s[2..];
      assert |fp| == d;
      var digits := ip + fp;
      assert digits == "0" + zeros + "1";
      ZerosValue(d);
      assert "0" + zeros == Repeat('0', d);
      assert digits[..|digits| - 1] == Repeat('0', d);
      assert AllDigits(digits);
      assert DigitsValue(digits) == 1;
    } else {
      var s := GetStepValue(d);
      assert s == "1" && s[1..] == "";
      assert DotIndex(s) == None;
      assert s[..|s| - 1] == "";
      assert DigitsValue(s) == 1;
    }
  }

  /** `tokenDecimals = 0` when the prop is absent. */
  function EffectiveDecimals(d: Option<int>): (r: int)
    ensures d.None? ==> r == 0
    ensures d.Some? ==> r == d.value
  {
    d.GetOr(0)
  }

  /** The card passes each token's precision, so the step is one unit of the
      token's smallest decimal place; without the prop the step is 1. */
  lemma CardStepMatchesToken(t: Token)
    ensures ParseDecimal(GetStepValue(EffectiveDecimals(Some(ButtonDecimals(t))))) == Some(Decimal(1, Decimals(t)))
    ensures GetStepValue(EffectiveDecimals(None)) == "1"
  {
    StepValueParses(Decimals(t));
  }

  // ---------------------------------------------------------------------------
  // Inputs and submit guards

  /** `formatValueOnInputChange(value, decimals)` is not part of this model. */
  type InputFormatter = (string, int) -> string

  /** The controlled inputs of a form; each form uses its own two (mint: one). */
  datatype Fields = Fields(address: string, amount: string, allowance: string)

  const EmptyFields: Fields := Fields("", "", "")

  /** The mint form's change handler formats every change into `amount`. */
  function MintInput(st: Fields, value: string, decimals: int, fmt: InputFormatter): (r: Fields)
    ensures r.amount == fmt(value, decimals)
    ensures r.address == st.address && r.allowance == st.allowance
  {
    st.(amount := fmt(value, decimals))
  }

  /** The transfer form: `address` verbatim, `amount` formatted, other names ignored. */
  function TransferInput(st: Fields, name: string, value: string, decimals: int, fmt: InputFormatter): (r: Fields)
    ensures name == "address" ==> r == st.(address := value)
    ensures name == "amount" ==> r == st.(amount := fmt(value, decimals))
    ensures name != "address" && name != "amount" ==> r == st
  {
    if name == "address" then st.(address := value)
    else if name == "amount" then st.(amount := fmt(value, decimals))
    else st
  }

  /** The approve form: `address` verbatim, `allowance` formatted, other names ignored. */
  function ApproveInput(st: Fields, name: string, value: string, decimals: int, fmt: InputFormatter): (r: Fields)
    ensures name == "address" ==> r == st.(address := value)
    ensures name == "allowance" ==> r == st.(allowance := fmt(value, decimals))
    ensures name != "address" && name != "allowance" ==> r == st
  {
    if name == "address" then st.(address := value)
    else if name == "allowance" then st.(allowance := fmt(value, decimals))
    else st
  }

  /** The mint form submits `{amount}` unless the amount is empty. */
  function MintSubmit(st: Fields): (r: Option<FormData>)
    ensures r.None? <==> st.amount == ""
    ensures r.Some? ==> r.value == FormData(Some(st.amount), None, None)
  {
    if !Truthy(st.amount) then None else Some(FormData(Some(st.amount), None, None))
  }

  /** The transfer form submits `{address, amount}` unless either is empty. */
  function TransferSubmit(st: Fields): (r: Option<FormData>)
    ensures r.None? <==> st.address == "" || st.amount == ""
    ensures r.Some? ==> r.value == FormData(Some(st.amount), Some(st.address), None)
  {
    if !Truthy(st.address) || !Truthy(st.amount) then None
    else Some(FormData(Some(st.amount), Some(st.address), None))
  }

  /** The approve form submits `{address, allowance}` unless either is empty. */
  function ApproveSubmit(st: Fields): (r: Option<FormData>)
    ensures r.None? <==> st.address == "" || st.allowance == ""
    ensures r.Some? ==> r.value == FormData(None, Some(st.address), Some(st.allowance))
  {
    if !Truthy(st.address) || !Truthy(st.allowance) then None
    else Some(FormData(None, Some(st.address), Some(st.allowance)))
  }

  /** Every object a form submits reaches its own handler on the card, and only it. */
  lemma SubmittedFormsRoute(st: Fields, t: Token)
    ensures MintSubmit(st).Some? ==>
      var fd := MintSubmit(st).value;
      MintRoute(fd, t) == Some(MintAction(st.amount, t)) && TransferRoute(fd, t).None? && ApproveRoute(fd, t).None?
    ensures TransferSubmit(st).Some? ==>
      var fd := TransferSubmit(st).value;
      TransferRoute(fd, t) == Some(TransferAction(st.address, st.amount, t)) && MintRoute(fd, t).None? && ApproveRoute(fd, t).None?
    ensures ApproveSubmit(st).Some? ==>
      var fd := ApproveSubmit(st).value;
      ApproveRoute(fd, t) == Some(ApproveAction(st.address, st.allowance, t)) && MintRoute(fd, t).None? && TransferRoute(fd, t).None?
  {
  }

  /** Typing an address and an amount into an empty transfer form and submitting
      delivers the address as typed and the amount as formatted. */
  lemma TypedTransferSubmits(address: string, amount: string, decimals: int, fmt: InputFormatter)
    requires address != "" && fmt(amount, decimals) != ""
    ensures var st := TransferInput(TransferInput(EmptyFields, "address", address, decimals, fmt), "amount", amount, decimals, fmt);
      TransferSubmit(st) == Some(FormData(Some(fmt(amount, decimals)), Some(address), None))
  {
  }

  // ---------------------------------------------------------------------------
  // The dialog

  /** Whether the dialog is open, and the objects handed to `onFormSubmit`. */
  datatype Dialog = Dialog(isOpen: bool, delivered: seq<FormData>)

  /** `handleFormSubmitWrapper`: deliver (when a handler is given), then close. */
  function SubmitWrapper(d: Dialog, data: FormData, hasHandler: bool): (r: Dialog)
    ensures !r.isOpen
    ensures hasHandler ==> r.delivered == d.delivered + [data]
    ensures !hasHandler ==> r.delivered == d.delivered
  {
    Dialog(false, if hasHandler then d.delivered + [data] else d.delivered)
  }

  /** A form's submit: a failed guard returns early and leaves the dialog as it was. */
  function FormSubmit(d: Dialog, submitted: Option<FormData>, hasHandler: bool): (r: Dialog)
    ensures submitted.None? ==> r == d
    ensures submitted.Some? ==> r == SubmitWrapper(d, submitted.value, hasHandler)
  {
    match submitted
    case None => d
    case Some(data) => SubmitWrapper(d, data, hasHandler)
  }

  /** An empty required field keeps an open dialog open and delivers nothing; a
      complete form is delivered exactly once and closes the dialog. */
  lemma GuardKeepsDialog(d: Dialog, st: Fields)
    requires d.isOpen
    ensures st.amount == "" ==> FormSubmit(d, MintSubmit(st), true) == d
    ensures st.amount != "" ==>
      var r := FormSubmit(d, MintSubmit(st), true);
      !r.isOpen && |r.delivered| == |d.delivered| + 1 && r.delivered[|d.delivered|] == FormData(Some(st.amount), None, None)
  {
  }

  // ---------------------------------------------------------------------------
  // Choosing the form

  datatype FormKind = MintForm | TransferForm | ApproveForm | NoActionDefined

  /** `renderForm()`: by the lower-cased label. */
  function RenderForm(text: string): (r: FormKind)
    ensures r == MintForm <==> ToLower(text) == "mint"
    ensures r == TransferForm <==> ToLower(text) == "transfer"
    ensures r == ApproveForm <==> ToLower(text) == "approve"
  {
    var l := ToLower(text);
    if l == "mint" then MintForm
    else if l == "transfer" then TransferForm
    else if l == "approve" then ApproveForm
    else NoActionDefined
  }

  /** The choice ignores case, and the card's three labels pick their own forms. */
  lemma RenderFormIgnoresCase(text: string)
    ensures RenderForm(ToLower(text)) == RenderForm(text)
    ensures RenderForm("Mint") == MintForm
    ensures RenderForm("Transfer") == TransferForm
    ensures RenderForm("Approve") == ApproveForm
  {
    ToLowerIdempotent(text);
    assert ToLower("Mint") == "mint";
    assert ToLower("Transfer") == "transfer";
    assert ToLower("Approve") == "approve";
  }
}

=== FILE: charts.dfy ===
/** The two aggregations behind the statistics charts:
    `components/charts/EventTypeSummaryChart.tsx` counts events per type and
    `components/charts/TokenDistributionChart.tsx` counts them per token,
    dropping tokens with no events. */
module Charts {
  import opened Tokens
  import opened Seqs

  function OfType(t: EventType): TokenEvent -> bool {
    (e: TokenEvent) => e.eventType == t
  }

  function OfToken(t: Token): TokenEvent -> bool {
    (e: TokenEvent) => e.token == t
  }

  // ---------------------------------------------------------------------------
  // Event-type summary

  /** One bar of the summary chart. */
  datatype SummaryEntry = SummaryEntry(name: EventType, count: nat)

  const SummaryOrder: seq<EventType> := [Mint, Transfer, Approve]

  /** The `forEach` pass of `processData`: one counter per event type. */
  method CountTypes(events: seq<TokenEvent>) returns (mint: nat, transfer: nat, approve: nat)
    ensures mint == Count(OfType(Mint), events)
    ensures transfer == Count(OfType(Transfer), events)
    ensures approve == Count(OfType(Approve), events)
  {
    mint, transfer, approve := 0, 0, 0;
    for i := 0 to |events|
      invariant mint == Count(OfType(Mint), events[..i])
      invariant transfer == Count(OfType(Transfer), events[..i])
      invariant approve == Count(OfType(Approve), events[..i])
    {
      assert events[..i + 1] == events[..i] + [events[i]];
      CountSnoc(OfType(Mint), events[..i], events[i]);
      CountSnoc(OfType(Transfer), events[..i], events[i]);
      CountSnoc(OfType(Approve), events[..i], events[i]);
      match events[i].eventType
      case Mint => mint := mint + 1;
      case Transfer => transfer := transfer + 1;
      case Approve => approve := approve + 1;
    }
    assert events[..|events|] == events;
  }

  /** `processData`: the counters, then three bars. */
  method ProcessEventTypes(events: seq<TokenEvent>) returns (r: seq<SummaryEntry>)
    ensures |r| == 3
    ensures forall k :: 0 <= k < 3 ==> r[k].name == SummaryOrder[k]
    ensures forall k :: 0 <= k < 3 ==> r[k].count == Count(OfType(r[k].name), events)
    ensures |events| == 0 ==> forall k :: 0 <= k < 3 ==> r[k].count == 0
  {
    var mint, transfer, approve := CountTypes(events);
    r := [SummaryEntry(Mint, mint), SummaryEntry(Transfer, transfer), SummaryEntry(Approve, approve)];
  }

  /** Every event has one of the three types, so the bars add up to the input length. */
  lemma {:induction false} TypeCountsSum(events: seq<TokenEvent>)
    ensures Count(OfType(Mint), events) + Count(OfType(Transfer), events) + Count(OfType(Approve), events) == |events|
    decreases |events|
  {
    if |events| > 0 {
      TypeCountsSum(events[1..]);
    }
  }

  // ---------------------------------------------------------------------------
  // Token distribution

  /** One slice of the distribution chart. */
  datatype DistEntry = DistEntry(name: Token, value: nat)

  /** The per-token `forEach` pass. */
  method CountTokens(events: seq<TokenEvent>) returns (dai: nat, usdc: nat)
    ensures dai == Count(OfToken(DAI), events)
    ensures usdc == Count(OfToken(USDC), events)
  {
    dai, usdc := 0, 0;
    for i := 0 to |events|
      invariant dai == Count(OfToken(DAI), events[..i])
      invariant usdc == Count(OfToken(USDC), events[..i])
    {
      assert events[..i + 1] == events[..i] + [events[i]];
      CountSnoc(OfToken(DAI), events[..i], events[i]);
      CountSnoc(OfToken(USDC), events[..i], events[i]);
      if events[i].token == DAI {
        dai := dai + 1;
      } else if events[i].token == USDC {
        usdc := usdc + 1;
      }
    }
    assert events[..|events|] == events;
  }

  function Positive(d: DistEntry): bool {
    d.value > 0
  }

  /** `[{DAI}, {USDC}].filter(value > 0)`. */
  function Distribution(dai: nat, usdc: nat): (r: seq<DistEntry>)
    ensures |r| <= 2
    ensures forall d :: d in r ==> d.value > 0
    ensures DistEntry(DAI, dai) in r <==> dai > 0
    ensures DistEntry(USDC, usdc) in r <==> usdc > 0
    ensures forall d :: d in r ==> d == DistEntry(DAI, dai) || d == DistEntry(USDC, usdc)
    ensures |r| == 2 ==> r[0].name == DAI && r[1].name == USDC
    ensures r == [] <==> dai == 0 && usdc == 0
    ensures r == (if dai > 0 then [DistEntry(DAI, dai)] else []) + (if usdc > 0 then [DistEntry(USDC, usdc)] else [])
  {
    var processed := [DistEntry(DAI, dai), DistEntry(USDC, usdc)];
    assert processed[1..] == [DistEntry(USDC, usdc)];
    assert processed[1..][1..] == [];
    FilterMembership(Positive, processed, DistEntry(DAI, dai));
    FilterMembership(Positive, processed, DistEntry(USDC, usdc));
    Filter(Positive, processed)
  }

  /** `processData` of the distribution chart. */
  method ProcessTokenData(events: seq<TokenEvent>) returns (r: seq<DistEntry>)
    ensures r == Distribution(Count(OfToken(DAI), events), Count(OfToken(USDC), events))
    ensures Total(r) == |events|
  {
    var dai, usdc := CountTokens(events);
    r := Distribution(dai, usdc);
    TokenCountsSum(events);
    DistributionTotal(dai, usdc);
  }

  function Total(r: seq<DistEntry>): nat
    decreases |r|
  {
    if |r| == 0 then 0 else r[0].value + Total(r[1..])
  }

  /** Dropping empty slices does not change the total. */
  lemma DistributionTotal(dai: nat, usdc: nat)
    ensures Total(Distribution(dai, usdc)) == dai + usdc
  {
    var r := Distribution(dai, usdc);
    if dai > 0 && usdc > 0 {
      assert r == [DistEntry(DAI, dai), DistEntry(USDC, usdc)];
      assert r[1..] == [DistEntry(USDC, usdc)];
      assert r[1..][1..] == [];
      assert Total(r[1..]) == usdc;
    } else if dai > 0 {
      assert r == [DistEntry(DAI, dai)];
    } else if usdc > 0 {
      assert r == [DistEntry(USDC, usdc)];
    }
  }

  lemma {:induction false} TokenCountsSum(events: seq<TokenEvent>)
    ensures Count(OfToken(DAI), events) + Count(OfToken(USDC), events) == |events|
    decreases |events|
  {
    if |events| > 0 {
      TokenCountsSum(events[1..]);
    }
  }

  /** The 'No data for this chart.' branch is taken exactly for an empty event list. */
  lemma NoDataIffEmpty(events: seq<TokenEvent>)
    ensures Distribution(Count(OfToken(DAI), events), Count(OfToken(USDC), events)) == [] <==> |events| == 0
  {
    TokenCountsSum(events);
  }
}

=== FILE: dashboard.dfy ===
/** The older dashboard page (`app/dashboard/page.tsx`): two optimistic
    balance reducers, the event-prepend reducer, the three handlers as the
    effects they perform, and the status cell of the recent-transactions table. */
module Dashboard {
  import opened JsText
  import opened Tokens

  // ---------------------------------------------------------------------------
  // The balance reducer

  /** `{type, amount}` handed to a balance reducer. */
  datatype BalanceAction = BalanceAction(kind: string, amount: string)

  /** `Number(...)` of an amount string is not part of this model. */
  type NumberOf = string -> real

  /** The signed change an action makes: `+amount` for 'mint', `-amount` for
      'transfer', nothing for any other type. */
  function Signed(a: BalanceAction, num: NumberOf): real {
    if a.kind == "mint" then num(a.amount)
    else if a.kind == "transfer" then -num(a.amount)
    else 0.0
  }

  /** The `useOptimistic` reducer shared by the DAI and USDC balances. */
  function BalanceReducer(state: real, a: BalanceAction, num: NumberOf): (r: real)
    ensures r - state == Signed(a, num)
    ensures a.kind != "mint" && a.kind != "transfer" ==> r == state
  {
    match a.kind
    case "mint" => state + num(a.amount)
    case "transfer" => state - num(a.amount)
    case _ => state
  }

  /** A mint followed by a transfer of the same amount shows the starting balance. */
  lemma MintThenTransferCancels(state: real, amount: string, num: NumberOf)
    ensures BalanceReducer(BalanceReducer(state, BalanceAction("mint", amount), num), BalanceAction("transfer", amount), num) == state
  {
  }

  /** The reducer applied to a queue of pending actions, oldest first. */
  function ReduceAll(state: real, actions: seq<BalanceAction>, num: NumberOf): real
    decreases |actions|
  {
    if |actions| == 0 then state else ReduceAll(BalanceReducer(state, actions[0], num), actions[1..], num)
  }

  /** The net change of a queue, summed from its newest end. */
  function NetChange(actions: seq<BalanceAction>, num: NumberOf): real
    decreases |actions|
  {
    if |actions| == 0 then 0.0 else NetChange(actions[..|actions| - 1], num) + Signed(actions[|actions| - 1], num)
  }

  lemma {:induction false} NetChangeCons(actions: seq<BalanceAction>, num: NumberOf)
    requires |actions| > 0
    ensures NetChange(actions, num) == Signed(actions[0], num) + NetChange(actions[1..], num)
    decreases |actions|
  {
    if |actions| > 1 {
      var init := actions[..|actions| - 1];
      NetChangeCons(init, num);
      assert init[1..] == actions[1..][..|actions[1..]| - 1];
    } else {
      assert actions[1..] == [];
      assert actions[..0] == [];
    }
  }

  /** Folding the reducer over a queue adds its net change to the base balance. */
  lemma {:induction false} ReduceAllIsNetChange(state: real, actions: seq<BalanceAction>, num: NumberOf)
    ensures ReduceAll(state, actions, num) == state + NetChange(actions, num)
    decreases |actions|
  {
    if |actions| > 0 {
      ReduceAllIsNetChange(BalanceReducer(state, actions[0], num), actions[1..], num);
      NetChangeCons(actions, num);
    }
  }

  lemma {:induction false} NetChangeAppend(a: seq<BalanceAction>, b: seq<BalanceAction>, num: NumberOf)
    ensures NetChange(a + b, num) == NetChange(a, num) + NetChange(b, num)
    decreases |b|
  {
    if |b| == 0 {
      assert a + b == a;
    } else {
      assert (a + b)[..|a + b| - 1] == a + b[..|b| - 1];
      NetChangeAppend(a, b[..|b| - 1], num);
    }
  }

  /** The shown balance does not depend on the order the pending actions were queued in. */
  lemma ReduceAllOrderIndependent(state: real, a: seq<BalanceAction>, b: seq<BalanceAction>, num: NumberOf)
    ensures ReduceAll(state, a + b, num) == ReduceAll(state, b + a, num)
  {
    ReduceAllIsNetChange(state, a + b, num);
    ReduceAllIsNetChange(state, b + a, num);
    NetChangeAppend(a, b, num);
    NetChangeAppend(b, a, num);
  }

  // ---------------------------------------------------------------------------
  // The reducer on the value the store holds

  /** The store's balance as JavaScript sees it: a string, or a number once an
      arithmetic step has produced one. */
  datatype JsBalance = Text(s: string) | Numeric(x: real)

  /** `String(...)` of a number is not part of this model. */
  type ShowNumber = real -> string

  /** The same reducer with JavaScript's operators: `+` on a string
      concatenates the amount's decimal text, `-` converts the string to a
      number first. */
  function PageReducer(state: JsBalance, a: BalanceAction, num: NumberOf, show: ShowNumber): (r: JsBalance)
    // on a number it is the numeric reducer
    ensures state.Numeric? ==> r == Numeric(BalanceReducer(state.x, a, num))
    // on a string a mint appends text, and a transfer yields a number
    ensures state.Text? && a.kind == "mint" ==> r == Text(state.s + show(num(a.amount)))
    ensures state.Text? && a.kind == "transfer" ==> r == Numeric(num(state.s) - num(a.amount))
    ensures a.kind != "mint" && a.kind != "transfer" ==> r == state
  {
    match a.kind
    case "mint" =>
      (match state
       case Text(s) => Text(s + show(num(a.amount)))
       case Numeric(x) => Numeric(x + num(a.amount)))
    case "transfer" =>
      (match state
       case Text(s) => Numeric(num(s) - num(a.amount))
       case Numeric(x) => Numeric(x - num(a.amount)))
    case _ => state
  }

  function ReducePage(state: JsBalance, actions: seq<BalanceAction>, num: NumberOf, show: ShowNumber): JsBalance
    decreases |actions|
  {
    if |actions| == 0 then state else ReducePage(PageReducer(state, actions[0], num, show), actions[1..], num, show)
  }

  /** From a numeric base the page's reducer is the numeric one on every queue,
      so the numeric facts above hold for it. */
  lemma {:induction false} ReducePageOnNumbers(x: real, actions: seq<BalanceAction>, num: NumberOf, show: ShowNumber)
    ensures ReducePage(Numeric(x), actions, num, show) == Numeric(ReduceAll(x, actions, num))
    decreases |actions|
  {
    if |actions| > 0 {
      ReducePageOnNumbers(BalanceReducer(x, actions[0], num), actions[1..], num, show);
    }
  }

  /** From a string base, with `Number` and `String` behaving as JavaScript's do
      on these values, a mint of 5 then a transfer of 5 from "100" shows 1000,
      while the same two actions in the other order show 100. */
  lemma StringBaseMintConcatenates(num: NumberOf, show: ShowNumber)
    requires num("100") == 100.0 && num("5") == 5.0 && num("1005") == 1005.0 && show(5.0) == "5"
    ensures ReducePage(Text("100"), [BalanceAction("mint", "5"), BalanceAction("transfer", "5")], num, show) == Numeric(1000.0)
    ensures ReducePage(Text("100"), [BalanceAction("transfer", "5"), BalanceAction("mint", "5")], num, show) == Numeric(100.0)
  {
    var m := BalanceAction("mint", "5");
    var t := BalanceAction("transfer", "5");
    assert "100" + "5" == "1005";
    assert [m, t][1..] == [t] && [t][1..] == [];
    assert [t, m][1..] == [m] && [m][1..] == [];
  }

  // ---------------------------------------------------------------------------
  // The event reducer

  /** The object passed to `addOptimisticEvent`; absent keys are `None`. */
  datatype NewEvent = NewEvent(
    id: Option<string>,
    transactionHash: Option<string>,
    kind: string,
    amount: string,
    status: Option<string>,
    recipient: Option<string>,
    spender: Option<string>)

  /** A row of the recent-transactions table. */
  datatype Row = Row(
    id: string,
    transactionHash: string,
    kind: string,
    amount: string,
    status: Option<string>,
    recipient: Option<string>,
    spender: Option<string>)

  const PendingHash: string := "pending"

  /** The new row: the defaults, then the new event's own keys spread over them. */
  function RowOf(ne: NewEvent, tempId: string): (r: Row)
    ensures r.id == (if ne.id.Some? then ne.id.value else tempId)
    ensures r.transactionHash == (if ne.transactionHash.Some? then ne.transactionHash.value else PendingHash)
    ensures r.kind == ne.kind && r.amount == ne.amount && r.status == ne.status
    ensures r.recipient == ne.recipient && r.spender == ne.spender
  {
    Row(ne.id.GetOr(tempId), ne.transactionHash.GetOr(PendingHash), ne.kind, ne.amount, ne.status, ne.recipient, ne.spender)
  }

  /** The event reducer: the new row first, the current rows after it unchanged. */
  function PrependEvent(current: seq<Row>, ne: NewEvent, tempId: string): (r: seq<Row>)
    ensures |r| == |current| + 1
    ensures r[0] == RowOf(ne, tempId)
    ensures r[1..] == current
  {
    [RowOf(ne, tempId)] + current
  }

  /** Several pending events, oldest first, each with its temporary id. */
  function PrependAll(current: seq<Row>, news: seq<(NewEvent, string)>): seq<Row>
    decreases |news|
  {
    if |news| == 0 then current
    else PrependAll(PrependEvent(current, news[0].0, news[0].1), news[1..])
  }

  /** Pending events stack up newest first, and the confirmed rows stay at the
      end, in their order. */
  lemma {:induction false} PrependAllKeepsCurrent(current: seq<Row>, news: seq<(NewEvent, string)>)
    ensures |PrependAll(current, news)| == |current| + |news|
    ensures PrependAll(current, news)[|news|..] == current
    ensures forall k :: 0 <= k < |news| ==>
      PrependAll(current, news)[k] == RowOf(news[|news| - 1 - k].0, news[|news| - 1 - k].1)
    decreases |news|
  {
    if |news| > 0 {
      var next := PrependEvent(current, news[0].0, news[0].1);
      PrependAllKeepsCurrent(next, news[1..]);
      var r := PrependAll(current, news);
      assert r == PrependAll(next, news[1..]);
      assert r[|news| - 1..] == next;
      assert r[|news|..] == next[1..];
      forall k | 0 <= k < |news|
        ensures r[k] == RowOf(news[|news| - 1 - k].0, news[|news| - 1 - k].1)
      {
        if k == |news| - 1 {
          assert r[k] == r[|news| - 1..][0];
        } else {
          assert news[1..][|news[1..]| - 1 - k] == news[|news| - 1 - k];
        }
      }
    }
  }

  // ---------------------------------------------------------------------------
  // The handlers

  /** Which optimistic balance a mint or transfer updates: USDC for 'USDC' or a
      falsy token type, DAI for 'DAI', none for anything else. */
  function TargetToken(tokenType: Option<string>): (r: Option<Token>)
    ensures r == Some(USDC) <==> tokenType == Some("USDC") || !TruthyOpt(tokenType)
    ensures r == Some(DAI) <==> tokenType == Some("DAI")
  {
    if tokenType == Some("USDC") || !TruthyOpt(tokenType) then Some(USDC)
    else if tokenType == Some("DAI") then Some(DAI)
    else None
  }

  /** `data.tokenType || 'USDC'`: the token name handed to the token action. */
  function CallToken(tokenType: Option<string>): (r: string)
    ensures TruthyOpt(tokenType) ==> r == tokenType.value
    ensures !TruthyOpt(tokenType) ==> r == "USDC"
  {
    if TruthyOpt(tokenType) then tokenType.value else "USDC"
  }

  /** Whenever an optimistic balance is updated, the submission names that same token. */
  lemma TargetMatchesCall(tokenType: Option<string>)
    ensures TargetToken(tokenType).Some? ==> CallToken(tokenType) == Symbol(TargetToken(tokenType).value)
  {
  }

  /** The effects of one handler run. Submissions and fetches go to the stores. */
  datatype DashEffect =
    | OptimisticBalance(token: Token, action: BalanceAction)
    | OptimisticEvent(event: NewEvent)
    | CallMint(tokenName: string, amount: string)
    | CallTransfer(tokenName: string, address: string, amount: string)
    | CallApprove(tokenName: string, address: string, allowance: string)
    | FetchBalances
    | FetchEvents

  function PendingEvent(kind: string, amount: string, recipient: Option<string>, spender: Option<string>): NewEvent {
    NewEvent(None, None, kind, amount, Some("Pending"), recipient, spender)
  }

  /** The transition body of a mint or transfer: one balance update and one event, or nothing. */
  function OptimisticPart(tokenType: Option<string>, kind: string, amount: string, event: NewEvent): (r: seq<DashEffect>)
    ensures TargetToken(tokenType).Some? ==> r == [OptimisticBalance(TargetToken(tokenType).value, BalanceAction(kind, amount)), OptimisticEvent(event)]
    ensures TargetToken(tokenType).None? ==> r == []
  {
    match TargetToken(tokenType)
    case Some(t) => [OptimisticBalance(t, BalanceAction(kind, amount)), OptimisticEvent(event)]
    case None => []
  }

  /** `handleMint`; `submitThrows` chooses between the `try` and the `catch`
      block. The source repeats the same two refetch calls at the end of both
      blocks, which is why the two arms below coincide. */
  function HandleMint(tokenType: Option<string>, amount: string, submitThrows: bool): (r: seq<DashEffect>)
    ensures |r| >= 3 && r[|r| - 2..] == [FetchBalances, FetchEvents]
    ensures r[|r| - 3] == CallMint(CallToken(tokenType), amount)
    ensures forall t: Token :: OptimisticBalance(t, BalanceAction("mint", amount)) in r <==> TargetToken(tokenType) == Some(t)
    ensures OptimisticEvent(PendingEvent("Mint", amount, None, None)) in r <==> TargetToken(tokenType).Some?
    // an unknown token type makes no optimistic change at all
    ensures TargetToken(tokenType).None? ==> r == [CallMint(CallToken(tokenType), amount), FetchBalances, FetchEvents]
  {
    var opt := OptimisticPart(tokenType, "mint", amount, PendingEvent("Mint", amount, None, None));
    var call := [CallMint(CallToken(tokenType), amount)];
    if submitThrows then opt + call + [FetchBalances, FetchEvents]
    else opt + call + [FetchBalances, FetchEvents]
  }

  /** `handleTransfer`; as in `handleMint`, both blocks end with the same refetches. */
  function HandleTransfer(tokenType: Option<string>, address: string, amount: string, submitThrows: bool): (r: seq<DashEffect>)
    ensures |r| >= 3 && r[|r| - 2..] == [FetchBalances, FetchEvents]
    ensures r[|r| - 3] == CallTransfer(CallToken(tokenType), address, amount)
    ensures forall t: Token :: OptimisticBalance(t, BalanceAction("transfer", amount)) in r <==> TargetToken(tokenType) == Some(t)
    ensures OptimisticEvent(PendingEvent("Transfer", amount, Some(address), None)) in r <==> TargetToken(tokenType).Some?
    ensures TargetToken(tokenType).None? ==> r == [CallTransfer(CallToken(tokenType), address, amount), FetchBalances, FetchEvents]
  {
    var opt := OptimisticPart(tokenType, "transfer", amount, PendingEvent("Transfer", amount, Some(address), None));
    var call := [CallTransfer(CallToken(tokenType), address, amount)];
    if submitThrows then opt + call + [FetchBalances, FetchEvents]
    else opt + call + [FetchBalances, FetchEvents]
  }

  /** `handleApprove`: an event only, and only the events are refetched, by
      both the `try` and the `catch` block. */
  function HandleApprove(tokenType: Option<string>, address: string, allowance: string, submitThrows: bool): (r: seq<DashEffect>)
    ensures r == [OptimisticEvent(PendingEvent("Approve", allowance, None, Some(address))),
                  CallApprove(CallToken(tokenType), address, allowance), FetchEvents]
    ensures forall e :: e in r ==> !e.OptimisticBalance? && e != FetchBalances
  {
    var opt := [OptimisticEvent(PendingEvent("Approve", allowance, None, Some(address)))];
    var call := [CallApprove(CallToken(tokenType), address, allowance)];
    if submitThrows then opt + call + [FetchEvents] else opt + call + [FetchEvents]
  }

  /** Success and failure of the submission lead to the same effects. */
  lemma RefetchRegardless(tokenType: Option<string>, address: string, amount: string)
    ensures HandleMint(tokenType, amount, true) == HandleMint(tokenType, amount, false)
    ensures HandleTransfer(tokenType, address, amount, true) == HandleTransfer(tokenType, address, amount, false)
    ensures HandleApprove(tokenType, address, amount, true) == HandleApprove(tokenType, address, amount, false)
  {
  }

  /** What the page displays: both optimistic balances and the rows. */
  datatype View = View(dai: real, usdc: real, rows: seq<Row>)

  function BalanceOf(v: View, t: Token): real {
    if t == DAI then v.dai else v.usdc
  }

  /** The optimistic effects applied to the view; the others act on the stores. */
  function ApplyEffect(v: View, e: DashEffect, num: NumberOf, tempId: string): View {
    match e
    case OptimisticBalance(t, a) =>
      if t == DAI then v.(dai := BalanceReducer(v.dai, a, num)) else v.(usdc := BalanceReducer(v.usdc, a, num))
    case OptimisticEvent(ne) => v.(rows := PrependEvent(v.rows, ne, tempId))
    case _ => v
  }

  function ApplyEffects(v: View, es: seq<DashEffect>, num: NumberOf, tempId: string): View
    decreases |es|
  {
    if |es| == 0 then v else ApplyEffects(ApplyEffect(v, es[0], num, tempId), es[1..], num, tempId)
  }

  /** The reducers applied to a mint's optimistic updates add the amount to the
      targeted balance, leave the other balance untouched, and put one pending
      'Mint' row at the head of the table. How long React shows these values is
      not modelled. */
  lemma MintIsShownOptimistically(v: View, tokenType: Option<string>, amount: string, submitThrows: bool, num: NumberOf, tempId: string)
    requires TargetToken(tokenType).Some?
    ensures var t := TargetToken(tokenType).value;
      var w := ApplyEffects(v, HandleMint(tokenType, amount, submitThrows), num, tempId);
      && BalanceOf(w, t) == BalanceOf(v, t) + num(amount)
      && (forall u: Token :: u != t ==> BalanceOf(w, u) == BalanceOf(v, u))
      && w.rows == [Row(tempId, PendingHash, "Mint", amount, Some("Pending"), None, None)] + v.rows
  {
    var t := TargetToken(tokenType).value;
    var opt := OptimisticPart(tokenType, "mint", amount, PendingEvent("Mint", amount, None, None));
    var rest := [CallMint(CallToken(tokenType), amount), FetchBalances, FetchEvents];
    assert HandleMint(tokenType, amount, submitThrows) == opt + rest;
    ApplyEffectsAppend(v, opt, rest, num, tempId);
    ExternalEffectsInert(ApplyEffects(v, opt, num, tempId), rest, num, tempId);
    var x := opt[0];
    var y := opt[1];
    var v1 := ApplyEffect(v, x, num, tempId);
    assert opt[1..] == [y] && opt[1..][1..] == [];
    assert ApplyEffects(v1, [y], num, tempId) == ApplyEffects(ApplyEffect(v1, y, num, tempId), [], num, tempId);
    assert ApplyEffects(v, opt, num, tempId) == ApplyEffects(v1, [y], num, tempId);
  }

  lemma {:induction false} ApplyEffectsAppend(v: View, a: seq<DashEffect>, b: seq<DashEffect>, num: NumberOf, tempId: string)
    ensures ApplyEffects(v, a + b, num, tempId) == ApplyEffects(ApplyEffects(v, a, num, tempId), b, num, tempId)
    decreases |a|
  {
    if |a| == 0 {
      assert a + b == b;
    } else {
      assert (a + b)[1..] == a[1..] + b;
      ApplyEffectsAppend(ApplyEffect(v, a[0], num, tempId), a[1..], b, num, tempId);
    }
  }

  /** Submissions and fetches do not change what the page shows optimistically. */
  lemma {:induction false} ExternalEffectsInert(v: View, es: seq<DashEffect>, num: NumberOf, tempId: string)
    requires forall k :: 0 <= k < |es| ==> !es[k].OptimisticBalance? && !es[k].OptimisticEvent?
    ensures ApplyEffects(v, es, num, tempId) == v
    decreases |es|
  {
    if |es| > 0 {
      ExternalEffectsInert(v, es[1..], num, tempId);
    }
  }

  /** With a token type that is neither 'USDC', 'DAI' nor falsy, a mint or a
      transfer changes nothing on screen: there is no optimistic update. */
  lemma NoTargetShowsNothing(v: View, tokenType: Option<string>, address: string, amount: string, submitThrows: bool, num: NumberOf, tempId: string)
    requires TargetToken(tokenType).None?
    ensures ApplyEffects(v, HandleMint(tokenType, amount, submitThrows), num, tempId) == v
    ensures ApplyEffects(v, HandleTransfer(tokenType, address, amount, submitThrows), num, tempId) == v
  {
    ExternalEffectsInert(v, HandleMint(tokenType, amount, submitThrows), num, tempId);
    ExternalEffectsInert(v, HandleTransfer(tokenType, address, amount, submitThrows), num, tempId);
  }

  /** The page's own buttons submit forms without a token type, so the DAI
      branch is never taken from them: mint and transfer always target USDC. */
  lemma FormsWithoutTokenTypeTargetUsdc()
    ensures TargetToken(None) == Some(USDC) && CallToken(None) == "USDC"
  {
  }

  // ---------------------------------------------------------------------------
  // The status cell

  /** `event.status || 'Success'`. */
  function StatusText(status: Option<string>): (r: string)
    ensures r != ""
    ensures TruthyOpt(status) ==> r == status.value
    ensures !TruthyOpt(status) ==> r == "Success"
  {
    if TruthyOpt(status) then status.value else "Success"
  }

  /** Yellow text for a pending row, green for every other. */
  function StatusYellow(status: Option<string>): (r: bool)
    // the colour agrees with the text shown next to it
    ensures r <==> StatusText(status) == "Pending"
  {
    status == Some("Pending")
  }

  /** Rows added by the handlers read 'Pending' in yellow; a row without a status
      reads 'Success' in green. */
  lemma OptimisticRowsLookPending(kind: string, amount: string, recipient: Option<string>, spender: Option<string>, tempId: string)
    ensures var row := RowOf(PendingEvent(kind, amount, recipient, spender), tempId);
      StatusText(row.status) == "Pending" && StatusYellow(row.status)
    ensures StatusText(None) == "Success" && !StatusYellow(None)
  {
  }
}

=== FILE: history.dfy ===
/** The event-history store (`stores/slices/historySlice.ts`): ingestion of raw
    Transfer/Approval logs into typed events, the confirmed `events` list and
    the `optimisticEvents` overlay. */
module History {
  import opened JsText
  import opened Tokens
  import opened Seqs

  /** A raw Transfer log as the chain client returns it; any field may be missing. */
  datatype TransferLog = TransferLog(
    value: Option<nat>,
    from: Option<string>,
    to: Option<string>,
    transactionHash: Option<string>)

  /** A raw Approval log; any field may be missing. */
  datatype ApprovalLog = ApprovalLog(
    value: Option<nat>,
    owner: Option<string>,
    spender: Option<string>,
    transactionHash: Option<string>)

  /** The two log queries made for one token. */
  datatype TokenLogs = TokenLogs(transfers: seq<TransferLog>, approvals: seq<ApprovalLog>)

  /** A `bigint` value is falsy when missing or `0n`. */
  predicate TruthyValue(v: Option<nat>) {
    v.Some? && v.value != 0
  }

  /** The completeness guard: value, both parties and the hash are truthy. */
  predicate CompleteTransfer(log: TransferLog) {
    TruthyValue(log.value) && TruthyOpt(log.from) && TruthyOpt(log.to) && TruthyOpt(log.transactionHash)
  }

  predicate CompleteApproval(log: ApprovalLog) {
    TruthyValue(log.value) && TruthyOpt(log.owner) && TruthyOpt(log.spender) && TruthyOpt(log.transactionHash)
  }

  /** The wallet is one of the two parties, compared case-insensitively. */
  predicate Involves(wallet: string, a: string, b: string) {
    EqualsIgnoreCase(a, wallet) || EqualsIgnoreCase(b, wallet)
  }

  predicate KeepTransfer(wallet: string, log: TransferLog) {
    CompleteTransfer(log) && Involves(wallet, log.from.value, log.to.value)
  }

  predicate KeepApproval(wallet: string, log: ApprovalLog) {
    CompleteApproval(log) && Involves(wallet, log.owner.value, log.spender.value)
  }

  function TransferEvent(log: TransferLog, token: Token, fmt: Formatter): TokenEvent
    requires CompleteTransfer(log)
  {
    TokenEvent(
      amount := fmt(log.value.value, Decimals(token)),
      from := log.from.value,
      id := log.transactionHash.value,
      to := log.to.value,
      status := Success,
      token := token,
      transactionHash := log.transactionHash.value,
      eventType := if log.from.value == ZeroAddress then Mint else Transfer)
  }

  function ApprovalEvent(log: ApprovalLog, token: Token, fmt: Formatter): TokenEvent
    requires CompleteApproval(log)
  {
    TokenEvent(
      amount := fmt(log.value.value, Decimals(token)),
      from := log.owner.value,
      id := log.transactionHash.value,
      to := log.spender.value,
      status := Success,
      token := token,
      transactionHash := log.transactionHash.value,
      eventType := Approve)
  }

  /** What every ingested event promises, whichever log it came from. */
  predicate Ingested(wallet: string, token: Token, e: TokenEvent) {
    && e.status == Success
    && e.token == token
    && e.id == e.transactionHash
    && e.id != ""
    && e.from != "" && e.to != ""
    && Involves(wallet, e.from, e.to)
  }

  /** A transfer event: typed Mint exactly when it comes from the zero address. */
  predicate TransferShaped(e: TokenEvent) {
    e.eventType != Approve && (e.eventType == Mint <==> e.from == ZeroAddress)
  }

  /** The transfer-log loop, as a function of the logs seen so far. */
  function ProcessTransfers(wallet: string, token: Token, logs: seq<TransferLog>, fmt: Formatter): (r: seq<TokenEvent>)
    ensures |r| <= |logs|
    ensures forall e :: e in r ==> Ingested(wallet, token, e) && TransferShaped(e)
    decreases |logs|
  {
    if |logs| == 0 then []
    else
      var last := logs[|logs| - 1];
      ProcessTransfers(wallet, token, logs[..|logs| - 1], fmt)
      + (if KeepTransfer(wallet, last) then [TransferEvent(last, token, fmt)] else [])
  }

  /** The approval-log loop, as a function of the logs seen so far. */
  function ProcessApprovals(wallet: string, token: Token, logs: seq<ApprovalLog>, fmt: Formatter): (r: seq<TokenEvent>)
    ensures |r| <= |logs|
    ensures forall e :: e in r ==> Ingested(wallet, token, e) && e.eventType == Approve
    decreases |logs|
  {
    if |logs| == 0 then []
    else
      var last := logs[|logs| - 1];
      ProcessApprovals(wallet, token, logs[..|logs| - 1], fmt)
      + (if KeepApproval(wallet, last) then [ApprovalEvent(last, token, fmt)] else [])
  }

  /** An event is produced exactly for each kept log: a log that is incomplete or
      does not involve the wallet contributes nothing. */
  lemma {:induction false} ProcessTransfersExactly(wallet: string, token: Token, logs: seq<TransferLog>, fmt: Formatter, e: TokenEvent)
    ensures e in ProcessTransfers(wallet, token, logs, fmt)
        <==> exists log :: log in logs && KeepTransfer(wallet, log) && e == TransferEvent(log, token, fmt)
    decreases |logs|
  {
    if |logs| > 0 {
      var init := logs[..|logs| - 1];
      ProcessTransfersExactly(wallet, token, init, fmt, e);
      assert logs == init + [logs[|logs| - 1]];
      forall log | log in logs
        ensures log in init || log == logs[|logs| - 1]
      {
      }
    }
  }

  lemma {:induction false} ProcessApprovalsExactly(wallet: string, token: Token, logs: seq<ApprovalLog>, fmt: Formatter, e: TokenEvent)
    ensures e in ProcessApprovals(wallet, token, logs, fmt)
        <==> exists log :: log in logs && KeepApproval(wallet, log) && e == ApprovalEvent(log, token, fmt)
    decreases |logs|
  {
    if |logs| > 0 {
      var init := logs[..|logs| - 1];
      ProcessApprovalsExactly(wallet, token, init, fmt, e);
      assert logs == init + [logs[|logs| - 1]];
      forall log | log in logs
        ensures log in init || log == logs[|logs| - 1]
      {
      }
    }
  }

  // ---------------------------------------------------------------------------
  // Reference definition: keep the logs, then map each to its event

  function TransferFilter(wallet: string): TransferLog -> bool {
    (l: TransferLog) => KeepTransfer(wallet, l)
  }

  function ApprovalFilter(wallet: string): ApprovalLog -> bool {
    (l: ApprovalLog) => KeepApproval(wallet, l)
  }

  /** One event per log, in log order. */
  function TransferEvents(token: Token, kept: seq<TransferLog>, fmt: Formatter): (r: seq<TokenEvent>)
    requires forall l :: l in kept ==> CompleteTransfer(l)
    ensures |r| == |kept|
    ensures forall i :: 0 <= i < |kept| ==> r[i] == TransferEvent(kept[i], token, fmt)
    decreases |kept|
  {
    if |kept| == 0 then [] else [TransferEvent(kept[0], token, fmt)] + TransferEvents(token, kept[1..], fmt)
  }

  function ApprovalEvents(token: Token, kept: seq<ApprovalLog>, fmt: Formatter): (r: seq<TokenEvent>)
    requires forall l :: l in kept ==> CompleteApproval(l)
    ensures |r| == |kept|
    ensures forall i :: 0 <= i < |kept| ==> r[i] == ApprovalEvent(kept[i], token, fmt)
    decreases |kept|
  {
    if |kept| == 0 then [] else [ApprovalEvent(kept[0], token, fmt)] + ApprovalEvents(token, kept[1..], fmt)
  }

  /** The loop emits exactly one event per kept log, in log order, and no other. */
  lemma {:induction false} TransferEventsAppend(token: Token, a: seq<TransferLog>, b: seq<TransferLog>, fmt: Formatter)
    requires forall l :: l in a ==> CompleteTransfer(l)
    requires forall l :: l in b ==> CompleteTransfer(l)
    ensures TransferEvents(token, a + b, fmt) == TransferEvents(token, a, fmt) + TransferEvents(token, b, fmt)
  {
    var lhs := TransferEvents(token, a + b, fmt);
    var rhs := TransferEvents(token, a, fmt) + TransferEvents(token, b, fmt);
    forall i | 0 <= i < |lhs|
      ensures lhs[i] == rhs[i]
    {
      if i >= |a| {
        assert (a + b)[i] == b[i - |a|];
      }
    }
  }

  lemma {:induction false} ProcessTransfersIsFilterMap(wallet: string, token: Token, logs: seq<TransferLog>, fmt: Formatter)
    ensures ProcessTransfers(wallet, token, logs, fmt) == TransferEvents(token, Filter(TransferFilter(wallet), logs), fmt)
    ensures |ProcessTransfers(wallet, token, logs, fmt)| == Count(TransferFilter(wallet), logs)
    decreases |logs|
  {
    var p := TransferFilter(wallet);
    if |logs| > 0 {
      var init := logs[..|logs| - 1];
      var last := logs[|logs| - 1];
      ProcessTransfersIsFilterMap(wallet, token, init, fmt);
      assert logs == init + [last];
      FilterAppend(p, init, [last]);
      TransferEventsAppend(token, Filter(p, init), Filter(p, [last]), fmt);
      assert [last][1..] == [];
    }
    CountIsFilterLength(p, logs);
  }

  lemma {:induction false} ApprovalEventsAppend(token: Token, a: seq<ApprovalLog>, b: seq<ApprovalLog>, fmt: Formatter)
    requires forall l :: l in a ==> CompleteApproval(l)
    requires forall l :: l in b ==> CompleteApproval(l)
    ensures ApprovalEvents(token, a + b, fmt) == ApprovalEvents(token, a, fmt) + ApprovalEvents(token, b, fmt)
  {
    var lhs := ApprovalEvents(token, a + b, fmt);
    var rhs := ApprovalEvents(token, a, fmt) + ApprovalEvents(token, b, fmt);
    forall i | 0 <= i < |lhs|
      ensures lhs[i] == rhs[i]
    {
      if i >= |a| {
        assert (a + b)[i] == b[i - |a|];
      }
    }
  }

  lemma {:induction false} ProcessApprovalsIsFilterMap(wallet: string, token: Token, logs: seq<ApprovalLog>, fmt: Formatter)
    ensures ProcessApprovals(wallet, token, logs, fmt) == ApprovalEvents(token, Filter(ApprovalFilter(wallet), logs), fmt)
    ensures |ProcessApprovals(wallet, token, logs, fmt)| == Count(ApprovalFilter(wallet), logs)
    decreases |logs|
  {
    var p := ApprovalFilter(wallet);
    if |logs| > 0 {
      var init := logs[..|logs| - 1];
      var last := logs[|logs| - 1];
      ProcessApprovalsIsFilterMap(wallet, token, init, fmt);
      assert logs == init + [last];
      FilterAppend(p, init, [last]);
      ApprovalEventsAppend(token, Filter(p, init), Filter(p, [last]), fmt);
      assert [last][1..] == [];
    }
    CountIsFilterLength(p, logs);
  }

  /** Events for one token: its transfers, then its approvals. */
  function ForToken(wallet: string, token: Token, logs: TokenLogs, fmt: Formatter): seq<TokenEvent> {
    ProcessTransfers(wallet, token, logs.transfers, fmt) + ProcessApprovals(wallet, token, logs.approvals, fmt)
  }

  function LogsOf(token: Token, dai: TokenLogs, usdc: TokenLogs): TokenLogs {
    if token == DAI then dai else usdc
  }

  /** The outer loop over the configured tokens, as a function of the tokens visited. */
  function IngestTokens(wallet: string, tokens: seq<Token>, dai: TokenLogs, usdc: TokenLogs, fmt: Formatter): seq<TokenEvent>
    decreases |tokens|
  {
    if |tokens| == 0 then []
    else
      var t := tokens[|tokens| - 1];
      IngestTokens(wallet, tokens[..|tokens| - 1], dai, usdc, fmt) + ForToken(wallet, t, LogsOf(t, dai, usdc), fmt)
  }

  /** Relation of one event to the wallet and its token tag. */
  predicate WellFormed(wallet: string, e: TokenEvent) {
    Ingested(wallet, e.token, e) && (e.eventType == Approve || TransferShaped(e))
  }

  /** Position of an event kind in the output: DAI transfers, DAI approvals,
      USDC transfers, USDC approvals. */
  function Rank(e: TokenEvent): nat {
    (if e.token == DAI then 0 else 2) + (if e.eventType == Approve then 1 else 0)
  }

  /** Every DAI event comes before every USDC event. */
  predicate DaiBeforeUsdc(r: seq<TokenEvent>) {
    forall i, j :: 0 <= i < j < |r| && r[j].token == DAI ==> r[i].token == DAI
  }

  /** Within one token, transfers and mints come before approvals. */
  predicate TransfersBeforeApprovals(r: seq<TokenEvent>) {
    forall i, j :: 0 <= i < j < |r| && r[i].token == r[j].token && r[j].eventType != Approve
      ==> r[i].eventType != Approve
  }

  lemma RankedLayout(dt: seq<TokenEvent>, da: seq<TokenEvent>, ut: seq<TokenEvent>, ua: seq<TokenEvent>)
    requires forall e :: e in dt ==> Rank(e) == 0
    requires forall e :: e in da ==> Rank(e) == 1
    requires forall e :: e in ut ==> Rank(e) == 2
    requires forall e :: e in ua ==> Rank(e) == 3
    ensures forall i, j :: 0 <= i < j < |dt + da + ut + ua| ==> Rank((dt + da + ut + ua)[i]) <= Rank((dt + da + ut + ua)[j])
  {
    var r := dt + da + ut + ua;
    var d := |dt| + |da|;
    forall k | 0 <= k < |r|
      ensures Rank(r[k]) == if k < |dt| then 0 else if k < d then 1 else if k < d + |ut| then 2 else 3
    {
      if k < |dt| { assert r[k] == dt[k]; assert dt[k] in dt; }
      else if k < d { assert r[k] == da[k - |dt|]; assert da[k - |dt|] in da; }
      else if k < d + |ut| { assert r[k] == ut[k - d]; assert ut[k - d] in ut; }
      else { assert r[k] == ua[k - d - |ut|]; assert ua[k - d - |ut|] in ua; }
    }
  }

  lemma RankOrdered(r: seq<TokenEvent>)
    requires forall i, j :: 0 <= i < j < |r| ==> Rank(r[i]) <= Rank(r[j])
    ensures DaiBeforeUsdc(r) && TransfersBeforeApprovals(r)
  {
  }

  /** The reference: each group's kept logs, mapped one to one onto events. */
  function KeptEvents(wallet: string, dai: TokenLogs, usdc: TokenLogs, fmt: Formatter): seq<TokenEvent> {
    TransferEvents(DAI, Filter(TransferFilter(wallet), dai.transfers), fmt)
      + ApprovalEvents(DAI, Filter(ApprovalFilter(wallet), dai.approvals), fmt)
      + TransferEvents(USDC, Filter(TransferFilter(wallet), usdc.transfers), fmt)
      + ApprovalEvents(USDC, Filter(ApprovalFilter(wallet), usdc.approvals), fmt)
  }

  /** The whole ingestion: DAI transfers, DAI approvals, USDC transfers, USDC
      approvals, each in log order, with no sorting. */
  function IngestEvents(wallet: string, dai: TokenLogs, usdc: TokenLogs, fmt: Formatter): (r: seq<TokenEvent>)
    // one event per kept log, in log order, grouped as the loops visit them
    ensures r == KeptEvents(wallet, dai, usdc, fmt)
    ensures forall e :: e in r ==> WellFormed(wallet, e)
    ensures |r| <= |dai.transfers| + |dai.approvals| + |usdc.transfers| + |usdc.approvals|
    ensures DaiBeforeUsdc(r) && TransfersBeforeApprovals(r)
  {
    var dt := ProcessTransfers(wallet, DAI, dai.transfers, fmt);
    var da := ProcessApprovals(wallet, DAI, dai.approvals, fmt);
    var ut := ProcessTransfers(wallet, USDC, usdc.transfers, fmt);
    var ua := ProcessApprovals(wallet, USDC, usdc.approvals, fmt);
    assert dt + da + ut + ua == KeptEvents(wallet, dai, usdc, fmt) by {
      ProcessTransfersIsFilterMap(wallet, DAI, dai.transfers, fmt);
      ProcessApprovalsIsFilterMap(wallet, DAI, dai.approvals, fmt);
      ProcessTransfersIsFilterMap(wallet, USDC, usdc.transfers, fmt);
      ProcessApprovalsIsFilterMap(wallet, USDC, usdc.approvals, fmt);
    }
    assert DaiBeforeUsdc(dt + da + ut + ua) && TransfersBeforeApprovals(dt + da + ut + ua) by {
      RankedLayout(dt, da, ut, ua);
      RankOrdered(dt + da + ut + ua);
    }
    dt + da + ut + ua
  }

  /** The function really is the token loop over `TokenOrder`. */
  lemma IngestEventsFollowsTokenOrder(wallet: string, dai: TokenLogs, usdc: TokenLogs, fmt: Formatter)
    ensures IngestEvents(wallet, dai, usdc, fmt) == IngestTokens(wallet, TokenOrder, dai, usdc, fmt)
  {
    assert TokenOrder[..1] == [DAI];
    assert [DAI][..0] == [];
  }

  /** The transfer loop of one token: appends its events to `events`. */
  method AppendTransfers(wallet: string, token: Token, logs: seq<TransferLog>, fmt: Formatter, events: seq<TokenEvent>)
    returns (out: seq<TokenEvent>)
    ensures out == events + ProcessTransfers(wallet, token, logs, fmt)
  {
    out := events;
    var i := 0;
    while i < |logs|
      invariant 0 <= i <= |logs|
      invariant out == events + ProcessTransfers(wallet, token, logs[..i], fmt)
    {
      var log := logs[i];
      assert logs[..i + 1][..i] == logs[..i];
      if KeepTransfer(wallet, log) {
        out := out + [TransferEvent(log, token, fmt)];
      }
      i := i + 1;
    }
    assert logs[..i] == logs;
  }

  /** The approval loop of one token: appends its events to `events`. */
  method AppendApprovals(wallet: string, token: Token, logs: seq<ApprovalLog>, fmt: Formatter, events: seq<TokenEvent>)
    returns (out: seq<TokenEvent>)
    ensures out == events + ProcessApprovals(wallet, token, logs, fmt)
  {
    out := events;
    var j := 0;
    while j < |logs|
      invariant 0 <= j <= |logs|
      invariant out == events + ProcessApprovals(wallet, token, logs[..j], fmt)
    {
      var log := logs[j];
      assert logs[..j + 1][..j] == logs[..j];
      if KeepApproval(wallet, log) {
        out := out + [ApprovalEvent(log, token, fmt)];
      }
      j := j + 1;
    }
    assert logs[..j] == logs;
  }

  /** The imperative log-processing loops of `fetchEvents`, proved to compute
      `IngestEvents`. */
  method CollectEvents(wallet: string, dai: TokenLogs, usdc: TokenLogs, fmt: Formatter) returns (events: seq<TokenEvent>)
    ensures events == IngestEvents(wallet, dai, usdc, fmt)
  {
    events := [];
    var k := 0;
    while k < |TokenOrder|
      invariant 0 <= k <= |TokenOrder|
      invariant events == IngestTokens(wallet, TokenOrder[..k], dai, usdc, fmt)
    {
      var token := TokenOrder[k];
      var logs := LogsOf(token, dai, usdc);
      var before := events;
      events := AppendTransfers(wallet, token, logs.transfers, fmt, events);
      events := AppendApprovals(wallet, token, logs.approvals, fmt, events);
      assert events == before + ForToken(wallet, token, logs, fmt);
      assert TokenOrder[..k + 1][..k] == TokenOrder[..k];
      k := k + 1;
    }
    assert TokenOrder[..k] == TokenOrder;
    IngestEventsFollowsTokenOrder(wallet, dai, usdc, fmt);
  }

  // ---------------------------------------------------------------------------
  // The store slice

  datatype HistoryState = HistoryState(
    events: seq<TokenEvent>,
    optimisticEvents: seq<TokenEvent>,
    eventsIsLoading: bool,
    eventsErrorMessage: Option<string>)

  const InitialHistory: HistoryState := HistoryState([], [], false, None)

  const FetchEventsError: string := "Failed to fetch events"

  /** What the chain queries of one `fetchEvents` run produced. */
  datatype LogsOutcome = LogsFetched(dai: TokenLogs, usdc: TokenLogs) | LogsFailed

  /** The overlay is the confirmed list followed by locally appended events. */
  predicate OverlayExtendsConfirmed(s: HistoryState) {
    s.events <= s.optimisticEvents
  }

  /** `fetchEvents(walletAddress)`. */
  function FetchEvents(s: HistoryState, wallet: Option<string>, outcome: LogsOutcome, fmt: Formatter): (r: HistoryState)
    ensures !r.eventsIsLoading
    ensures r.events == r.optimisticEvents
    ensures !TruthyOpt(wallet) ==> r.events == [] && r.eventsErrorMessage.None?
    ensures TruthyOpt(wallet) && outcome.LogsFetched? ==>
              r.eventsErrorMessage.None? && r.events == IngestEvents(wallet.value, outcome.dai, outcome.usdc, fmt)
    ensures TruthyOpt(wallet) && outcome.LogsFetched? ==> forall e :: e in r.events ==> WellFormed(wallet.value, e)
    ensures TruthyOpt(wallet) && outcome.LogsFailed? ==>
              r.events == [] && r.eventsErrorMessage == Some(FetchEventsError)
  {
    if !TruthyOpt(wallet) then
      HistoryState([], [], false, None)
    else
      var cleared := s.(eventsErrorMessage := None);
      match outcome
      case LogsFetched(dai, usdc) =>
        var events := IngestEvents(wallet.value, dai, usdc, fmt);
        cleared.(events := events, optimisticEvents := events, eventsIsLoading := false, eventsErrorMessage := None)
      case LogsFailed =>
        cleared.(events := [], optimisticEvents := [], eventsIsLoading := false, eventsErrorMessage := Some(FetchEventsError))
  }

  /** Re-running `fetchEvents` against unchanged chain state yields the same
      store, whatever the store held before. */
  lemma FetchEventsIdempotent(s: HistoryState, wallet: Option<string>, outcome: LogsOutcome, fmt: Formatter)
    ensures FetchEvents(FetchEvents(s, wallet, outcome, fmt), wallet, outcome, fmt) == FetchEvents(s, wallet, outcome, fmt)
  {
  }

  /** `setOptimisticEvents(event)`: append at the tail of the overlay. */
  function SetOptimisticEvents(s: HistoryState, e: TokenEvent): (r: HistoryState)
    ensures r.events == s.events
    ensures |r.optimisticEvents| == |s.optimisticEvents| + 1
    ensures r.optimisticEvents[..|s.optimisticEvents|] == s.optimisticEvents
    ensures r.optimisticEvents[|s.optimisticEvents|] == e
    ensures r.eventsIsLoading == s.eventsIsLoading && r.eventsErrorMessage == s.eventsErrorMessage
  {
    s.(optimisticEvents := s.optimisticEvents + [e])
  }

  /** `resetOptimisticEvents()`: the overlay goes back to the confirmed list. */
  function ResetOptimisticEvents(s: HistoryState): (r: HistoryState)
    ensures r.events == s.events && r.optimisticEvents == s.events
    ensures r.eventsIsLoading == s.eventsIsLoading && r.eventsErrorMessage == s.eventsErrorMessage
  {
    s.(optimisticEvents := s.events)
  }

  /** A run of appends. */
  function AppendAll(s: HistoryState, es: seq<TokenEvent>): HistoryState
    decreases |es|
  {
    if |es| == 0 then s else AppendAll(SetOptimisticEvents(s, es[0]), es[1..])
  }

  /** Appends extend the overlay in order and never touch the confirmed list. */
  lemma {:induction false} AppendAllExtends(s: HistoryState, es: seq<TokenEvent>)
    ensures AppendAll(s, es).events == s.events
    ensures AppendAll(s, es).optimisticEvents == s.optimisticEvents + es
    ensures AppendAll(s, es).eventsErrorMessage == s.eventsErrorMessage
    ensures AppendAll(s, es).eventsIsLoading == s.eventsIsLoading
    decreases |es|
  {
    if |es| > 0 {
      AppendAllExtends(SetOptimisticEvents(s, es[0]), es[1..]);
      assert s.optimisticEvents + [es[0]] + es[1..] == s.optimisticEvents + es;
    }
  }

  /** Resetting undoes any run of appends, and resetting twice is resetting once. */
  lemma ResetUndoesAppends(s: HistoryState, es: seq<TokenEvent>)
    ensures ResetOptimisticEvents(AppendAll(s, es)) == ResetOptimisticEvents(s)
    ensures ResetOptimisticEvents(ResetOptimisticEvents(s)) == ResetOptimisticEvents(s)
  {
    AppendAllExtends(s, es);
  }

  /** Every store operation keeps the overlay an extension of the confirmed list. */
  lemma OverlayInvariant(s: HistoryState, e: TokenEvent, wallet: Option<string>, outcome: LogsOutcome, fmt: Formatter)
    ensures OverlayExtendsConfirmed(InitialHistory)
    ensures OverlayExtendsConfirmed(s) ==> OverlayExtendsConfirmed(SetOptimisticEvents(s, e))
    ensures OverlayExtendsConfirmed(ResetOptimisticEvents(s))
    ensures OverlayExtendsConfirmed(FetchEvents(s, wallet, outcome, fmt))
  {
  }
}

=== FILE: history_table.dfy ===
/** The recent-transactions table of `components/TransactionHistoryTable.tsx`:
    the token filter over the event overlay, the gating of what is displayed,
    the fetch-on-mount guard, the action column filter and the fallback views. */
module HistoryTable {
  import opened JsText
  import opened Tokens
  import opened Seqs

  /** The token buttons: all tokens or one. */
  datatype TableFilter = AllTokens | OnlyToken(token: Token)

  /** The action buttons: all actions or one event type. */
  datatype ActionFilter = AllActions | OnlyAction(eventType: EventType)

  /** A column filter of the data table: a column id and the value to match. */
  datatype ColumnFilter = ColumnFilter(id: string, value: string)

  const TypeColumn: string := "type"

  function TypeName(t: EventType): string {
    match t
    case Mint => "Mint"
    case Transfer => "Transfer"
    case Approve => "Approve"
  }

  predicate PassesToken(f: TableFilter, e: TokenEvent) {
    f.AllTokens? || e.token == f.token
  }

  function TokenFilter(f: TableFilter): TokenEvent -> bool {
    (e: TokenEvent) => PassesToken(f, e)
  }

  /** `optimisticEvents?.filter(...) ?? null`: a missing list stays missing. */
  function FilterByToken(events: Option<seq<TokenEvent>>, f: TableFilter): (r: Option<seq<TokenEvent>>)
    ensures r.None? <==> events.None?
    ensures r.Some? ==> forall e :: e in r.value ==> e in events.value && PassesToken(f, e)
    ensures f.AllTokens? ==> r == events
  {
    match events
    case None => None
    case Some(es) =>
      if f.AllTokens? then
        FilterAll(TokenFilter(f), es);
        Some(Filter(TokenFilter(f), es))
      else
        Some(Filter(TokenFilter(f), es))
  }

  /** A one-token filter keeps exactly that token's events, every copy of
      them, in their order. */
  lemma FilterByTokenExactly(es: seq<TokenEvent>, t: Token, e: TokenEvent)
    ensures e in FilterByToken(Some(es), OnlyToken(t)).value <==> e in es && e.token == t
    ensures IsSubsequence(FilterByToken(Some(es), OnlyToken(t)).value, es)
    ensures multiset(FilterByToken(Some(es), OnlyToken(t)).value)[e] == if e.token == t then multiset(es)[e] else 0
    ensures |FilterByToken(Some(es), OnlyToken(t)).value| == Count(TokenFilter(OnlyToken(t)), es)
  {
    FilterMembership(TokenFilter(OnlyToken(t)), es, e);
    FilterIsSubsequence(TokenFilter(OnlyToken(t)), es);
    FilterMultiplicity(TokenFilter(OnlyToken(t)), es, e);
    CountIsFilterLength(TokenFilter(OnlyToken(t)), es);
  }

  /** `showEvents`: right network and a list present (an empty array is truthy). */
  predicate ShowEvents(isWrongNetwork: bool, filtered: Option<seq<TokenEvent>>) {
    !isWrongNetwork && filtered.Some?
  }

  /** `displayEvents`. */
  function DisplayEvents(isWrongNetwork: bool, filtered: Option<seq<TokenEvent>>): (r: seq<TokenEvent>)
    ensures isWrongNetwork || filtered.None? ==> r == []
    ensures !isWrongNetwork && filtered.Some? ==> r == filtered.value
  {
    if ShowEvents(isWrongNetwork, filtered) then filtered.value else []
  }

  /** The mount effect fetches only with a wallet and nothing to show. */
  function FetchOnMount(wallet: Option<string>, show: bool): (r: bool)
    // a fetch needs a non-empty wallet address
    ensures r ==> wallet.Some? && wallet.value != ""
    // rows already on screen suppress it
    ensures show ==> !r
    ensures !show && TruthyOpt(wallet) ==> r
  {
    TruthyOpt(wallet) && !show
  }

  /** What the table shows is always part of the overlay and passes the token
      filter; a loaded list on the right network suppresses the mount fetch,
      while on the wrong network a wallet always triggers it. */
  lemma DisplayedRowsAreFilteredOverlay(overlay: Option<seq<TokenEvent>>, f: TableFilter, wrong: bool, wallet: Option<string>)
    ensures var filtered := FilterByToken(overlay, f);
      forall e :: e in DisplayEvents(wrong, filtered) ==> overlay.Some? && e in overlay.value && PassesToken(f, e)
    ensures !wrong && overlay.Some? ==> !FetchOnMount(wallet, ShowEvents(wrong, FilterByToken(overlay, f)))
    ensures wrong && TruthyOpt(wallet) ==> FetchOnMount(wallet, ShowEvents(wrong, FilterByToken(overlay, f)))
  {
  }

  predicate NotType(c: ColumnFilter) {
    c.id != TypeColumn
  }

  /** The `updateActionFilter` effect on the column filters. */
  function UpdateActionFilter(prev: seq<ColumnFilter>, af: ActionFilter): (r: seq<ColumnFilter>)
    // filters on other columns are kept, in order
    ensures Filter(NotType, r) == Filter(NotType, prev)
    ensures af.AllActions? ==> forall c :: c in r ==> c.id != TypeColumn
    // a chosen action leaves exactly one `type` filter, holding its name, at the end
    ensures af.OnlyAction? ==>
      && |r| >= 1 && r[|r| - 1] == ColumnFilter(TypeColumn, TypeName(af.eventType))
      && forall c :: c in r[..|r| - 1] ==> c.id != TypeColumn
  {
    var kept := Filter(NotType, prev);
    FilterIdempotent(NotType, prev);
    match af
    case AllActions => kept
    case OnlyAction(t) =>
      var r := kept + [ColumnFilter(TypeColumn, TypeName(t))];
      FilterAppend(NotType, kept, [ColumnFilter(TypeColumn, TypeName(t))]);
      assert [ColumnFilter(TypeColumn, TypeName(t))][1..] == [];
      assert r[..|r| - 1] == kept;
      r
  }

  /** Re-running the effect with the same action changes nothing, and the last
      action chosen decides the filters whatever came before. */
  lemma UpdateActionFilterIdempotent(prev: seq<ColumnFilter>, a: ActionFilter, b: ActionFilter)
    ensures UpdateActionFilter(UpdateActionFilter(prev, a), a) == UpdateActionFilter(prev, a)
    ensures UpdateActionFilter(UpdateActionFilter(prev, a), b) == UpdateActionFilter(prev, b)
  {
    var once := UpdateActionFilter(prev, a);
    assert Filter(NotType, once) == Filter(NotType, prev);
  }

  /** The component's local filter state. */
  datatype TableState = TableState(tableFilter: TableFilter, actionFilter: ActionFilter, columnFilters: seq<ColumnFilter>)

  function InitialTable(selected: Token): TableState {
    TableState(OnlyToken(selected), AllActions, [])
  }

  /** `updateTokenFilter`: a change of the selected token overrides any token button choice. */
  function SyncSelectedToken(s: TableState, selected: Token): (r: TableState)
    ensures r.tableFilter == OnlyToken(selected)
    ensures r.actionFilter == s.actionFilter && r.columnFilters == s.columnFilters
  {
    s.(tableFilter := OnlyToken(selected))
  }

  /** An action button click, followed by the effect it triggers. */
  function ChooseAction(s: TableState, af: ActionFilter): (r: TableState)
    ensures r.actionFilter == af && r.tableFilter == s.tableFilter
    ensures r.columnFilters == UpdateActionFilter(s.columnFilters, af)
  {
    s.(actionFilter := af, columnFilters := UpdateActionFilter(s.columnFilters, af))
  }

  /** `noResultsMessage`. */
  function NoResultsMessage(f: TableFilter): (r: string)
    ensures f.AllTokens? ==> r == "No transactions yet."
    ensures f.OnlyToken? ==> r == "No " + Symbol(f.token) + " transactions yet."
  {
    if f.AllTokens? then "No transactions yet." else "No " + Symbol(f.token) + " transactions yet."
  }

  /** The card body: the retry view on a fetch error, else the table. */
  datatype TableContent =
    | RetryView(disabled: bool, buttonLabel: string)
    | TableView(rows: seq<TokenEvent>, noResults: string, isLoading: bool)

  function Content(fetchError: Option<string>, isRetrying: bool, isLoading: bool, rows: seq<TokenEvent>, f: TableFilter): (r: TableContent)
    ensures r.RetryView? <==> TruthyOpt(fetchError)
    ensures r.RetryView? ==> (r.disabled <==> isRetrying)
    ensures r.RetryView? ==> r.buttonLabel == (if isRetrying then "Retrying..." else "Retry")
    ensures r.TableView? ==> r.rows == rows && r.noResults == NoResultsMessage(f) && r.isLoading == isLoading
  {
    if TruthyOpt(fetchError) then RetryView(isRetrying, if isRetrying then "Retrying..." else "Retry")
    else TableView(rows, NoResultsMessage(f), isLoading)
  }

  /** Different filters never share a message: the message names the token. */
  lemma NoResultsMessageNamesFilter(f: TableFilter, g: TableFilter)
    ensures NoResultsMessage(f) == NoResultsMessage(g) <==> f == g
  {
    if f != g {
      var a := NoResultsMessage(f);
      var b := NoResultsMessage(g);
      if f.AllTokens? || g.AllTokens? {
        assert a[3] != b[3];
      } else {
        assert a[4] != b[4];
      }
    }
  }

  /** The card for the overlay on the right network: a fetch error shows the
      retry view whatever is loaded; otherwise the rows are the overlay's events
      of the selected token, and a token with no events gets the message naming it. */
  lemma CardForOverlay(overlay: seq<TokenEvent>, t: Token, fetchError: Option<string>, isRetrying: bool, isLoading: bool)
    ensures var rows := DisplayEvents(false, FilterByToken(Some(overlay), OnlyToken(t)));
            var c := Content(fetchError, isRetrying, isLoading, rows, OnlyToken(t));
            && (TruthyOpt(fetchError) ==> c == RetryView(isRetrying, if isRetrying then "Retrying..." else "Retry"))
            && (!TruthyOpt(fetchError) ==> c.TableView? && forall e :: e in c.rows <==> e in overlay && e.token == t)
    ensures (forall e :: e in overlay ==> e.token != t) && !TruthyOpt(fetchError) ==>
              Content(fetchError, isRetrying, isLoading, DisplayEvents(false, FilterByToken(Some(overlay), OnlyToken(t))), OnlyToken(t))
              == TableView([], "No " + Symbol(t) + " transactions yet.", isLoading)
  {
    forall e
      ensures e in FilterByToken(Some(overlay), OnlyToken(t)).value <==> e in overlay && e.token == t
    {
      FilterByTokenExactly(overlay, t, e);
    }
    if forall e :: e in overlay ==> e.token != t {
      FilterNone(TokenFilter(OnlyToken(t)), overlay);
    }
  }

  /** On the wrong network the table is empty even with events loaded. */
  lemma WrongNetworkShowsNoRows(overlay: Option<seq<TokenEvent>>, f: TableFilter, isLoading: bool)
    ensures Content(None, false, isLoading, DisplayEvents(true, FilterByToken(overlay, f)), f)
         == TableView([], NoResultsMessage(f), isLoading)
  {
  }
}

=== FILE: js_text.dfy ===
/** The few pieces of JavaScript string and value semantics the core relies on:
    ASCII lower-casing, `substring` index clamping, `includes`, `repeat`, and
    the truthiness of optional strings. */
module JsText {

  datatype Option<+T> = None | Some(value: T) {
    function GetOr(default: T): T {
      match this
      case Some(v) => v
      case None => default
    }
  }

  /** `!s` is false exactly for the empty string. */
  predicate Truthy(s: string) {
    s != ""
  }

  /** An optional string (`string | undefined`) is truthy iff present and non-empty. */
  predicate TruthyOpt(o: Option<string>) {
    o.Some? && o.value != ""
  }

  function LowerChar(c: char): char {
    if 'A' <= c <= 'Z' then (c as int + 32) as char else c
  }

  /** `toLowerCase`, on the ASCII letters that occur in hex addresses and labels. */
  function ToLower(s: string): (r: string)
    ensures |r| == |s|
    ensures forall i :: 0 <= i < |s| ==> r[i] == LowerChar(s[i])
  {
    seq(|s|, i requires 0 <= i < |s| => LowerChar(s[i]))
  }

  /** Lowering twice is lowering once. */
  lemma ToLowerIdempotent(s: string)
    ensures ToLower(ToLower(s)) == ToLower(s)
  {
  }

  /** `a.toLowerCase() === b.toLowerCase()` */
  predicate EqualsIgnoreCase(a: string, b: string) {
    ToLower(a) == ToLower(b)
  }

  function Clamp(x: int, lo: int, hi: int): (r: int)
    requires lo <= hi
    ensures lo <= r <= hi
    ensures lo <= x <= hi ==> r == x
  {
    if x < lo then lo else if x > hi then hi else x
  }

  /** `s.substring(start, end)`: both indices are clamped to `[0, |s|]` and
      swapped when `start > end`. */
  function Substring(s: string, start: int, end: int): (r: string)
    ensures 0 <= start <= end <= |s| ==> r == s[start..end]
    ensures |r| <= |s|
  {
    var a := Clamp(start, 0, |s|);
    var b := Clamp(end, 0, |s|);
    if a <= b then s[a..b] else s[b..a]
  }

  /** `s.substring(start)`, which runs to the end of the string. */
  function SubstringFrom(s: string, start: int): (r: string)
    ensures 0 <= start <= |s| ==> r == s[start..]
    ensures start <= 0 ==> r == s
  {
    Substring(s, start, |s|)
  }

  /** `hay.includes(needle)`. */
  predicate Includes(hay: string, needle: string)
    decreases |hay|
  {
    needle <= hay || (|hay| > 0 && Includes(hay[1..], needle))
  }

  /** Every string includes the empty string. */
  lemma IncludesEmpty(hay: string)
    ensures Includes(hay, "")
  {
  }

  /** `Includes` means an occurrence at some offset. */
  lemma {:induction false} IncludesAt(hay: string, needle: string, k: nat)
    requires k <= |hay| && needle <= hay[k..]
    ensures Includes(hay, needle)
    decreases k
  {
    if k > 0 {
      assert hay[1..][k - 1..] == hay[k..];
      IncludesAt(hay[1..], needle, k - 1);
    }
  }

  /** `c.repeat(n)` for a single character and a count `n >= 0`. */
  function Repeat(c: char, n: nat): (r: string)
    ensures |r| == n
    ensures forall i :: 0 <= i < |r| ==> r[i] == c
  {
    if n == 0 then "" else [c] + Repeat(c, n - 1)
  }
}

=== FILE: orchestrator.dfy ===
/** The action orchestrator of `components/ActionButtonsCard.tsx`: the
    mint / transfer / approve handlers run as one sequential pass each. A
    handler's control flow is the list of store effects it performs
    (`HandlerTrace`); the store after the run is those effects replayed
    (`Replay`). The three external steps -- submission, the receipt wait and
    the two refetches -- succeed or fail according to a `ChainOutcomes` input. */
module ActionOrchestrator {
  import opened JsText
  import opened Tokens
  import opened History
  import opened TokenActions

  datatype DeltaKind = MintDelta | TransferDelta

  /** One `setOptimisticBalance(amount, kind)` call. */
  datatype BalanceDelta = BalanceDelta(amount: string, kind: DeltaKind)

  /** The parts of the application store the handlers read and write. The
      balance overlay is the list of deltas applied since the last reset. */
  datatype Store = Store(
    balances: TokenActionsState,
    history: HistoryState,
    balanceOverlay: seq<BalanceDelta>,
    daiPending: bool,
    usdcPending: bool,
    errorMessage: Option<string>)

  /** A form submission, already routed to its handler, with the selected token. */
  datatype Action =
    | MintAction(amount: string, token: Token)
    | TransferAction(address: string, amount: string, token: Token)
    | ApproveAction(address: string, allowance: string, token: Token)

  /** The store effects a handler performs, in order. */
  datatype Effect =
    | SetPending(token: Token, on: bool)
    | Submit(action: Action)
    | ApplyDelta(delta: BalanceDelta)
    | AppendEvent(event: TokenEvent)
    | AwaitReceipt(hash: string)
    | RefetchBalances
    | RefetchEvents
    | ResetBalanceOverlay
    | ResetEventOverlay

  /** The token action either returns a (possibly missing) hash or throws. */
  datatype SubmitOutcome = Returned(hash: Option<string>) | Threw

  /** The nondeterministic results of the external steps of one run. */
  datatype ChainOutcomes = ChainOutcomes(
    submit: SubmitOutcome,
    receiptOk: bool,
    balanceRead: ReadOutcome,
    logs: LogsOutcome)

  /** `if (!txHash) throw ...` did not fire. */
  predicate HasHash(o: ChainOutcomes) {
    o.submit.Returned? && TruthyOpt(o.submit.hash)
  }

  /** The optimistic `TokenEvent` a handler appends once it holds `hash`;
      `hash ?? tempId` is written out as the source writes it. */
  function PendingEvent(action: Action, wallet: Option<string>, hash: string, tempId: string): (r: TokenEvent)
    // the hash is always defined here, so the temporary id is never used
    ensures r.id == hash && r.transactionHash == hash
    ensures r.status == Pending && r.token == action.token
    ensures r.from == wallet.GetOr("")
    ensures (r.eventType == Mint <==> action.MintAction?)
         && (r.eventType == Transfer <==> action.TransferAction?)
         && (r.eventType == Approve <==> action.ApproveAction?)
  {
    var me := wallet.GetOr("");
    match action
    case MintAction(amount, token) =>
      TokenEvent(amount, me, Some(hash).GetOr(tempId), me, Pending, token, hash, Mint)
    case TransferAction(address, amount, token) =>
      TokenEvent(amount, me, Some(hash).GetOr(tempId), address, Pending, token, hash, Transfer)
    case ApproveAction(address, allowance, token) =>
      TokenEvent(allowance, me, Some(hash).GetOr(tempId), address, Pending, token, hash, Approve)
  }

  /** The balance delta a handler applies (approve applies none). */
  function DeltaOf(action: Action): seq<BalanceDelta> {
    match action
    case MintAction(amount, _) => [BalanceDelta(amount, MintDelta)]
    case TransferAction(_, amount, _) => [BalanceDelta(amount, TransferDelta)]
    case ApproveAction(_, _, _) => []
  }

  /** One `ApplyDelta` per delta, in order. */
  function DeltaEffects(ds: seq<BalanceDelta>): (r: seq<Effect>)
    ensures |r| == |ds| && forall k :: 0 <= k < |ds| ==> r[k] == ApplyDelta(ds[k])
    decreases |ds|
  {
    if |ds| == 0 then [] else [ApplyDelta(ds[0])] + DeltaEffects(ds[1..])
  }

  /** The events appended by a trace, in order. */
  function EventsAppended(t: seq<Effect>): seq<TokenEvent>
    decreases |t|
  {
    if |t| == 0 then []
    else (if t[0].AppendEvent? then [t[0].event] else []) + EventsAppended(t[1..])
  }

  /** The balance deltas applied by a trace, in order. */
  function DeltasApplied(t: seq<Effect>): seq<BalanceDelta>
    decreases |t|
  {
    if |t| == 0 then []
    else (if t[0].ApplyDelta? then [t[0].delta] else []) + DeltasApplied(t[1..])
  }

  lemma {:induction false} EventsAppendedDistributes(a: seq<Effect>, b: seq<Effect>)
    ensures EventsAppended(a + b) == EventsAppended(a) + EventsAppended(b)
    decreases |a|
  {
    if |a| == 0 {
      assert a + b == b;
    } else {
      var head := if a[0].AppendEvent? then [a[0].event] else [];
      var ab := a + b;
      assert ab[0] == a[0] && ab[1..] == a[1..] + b;
      assert EventsAppended(ab) == head + EventsAppended(a[1..] + b);
      EventsAppendedDistributes(a[1..], b);
      assert EventsAppended(a) == head + EventsAppended(a[1..]);
    }
  }

  lemma {:induction false} DeltasAppliedDistributes(a: seq<Effect>, b: seq<Effect>)
    ensures DeltasApplied(a + b) == DeltasApplied(a) + DeltasApplied(b)
    decreases |a|
  {
    if |a| == 0 {
      assert a + b == b;
    } else {
      var head := if a[0].ApplyDelta? then [a[0].delta] else [];
      var ab := a + b;
      assert ab[0] == a[0] && ab[1..] == a[1..] + b;
      assert DeltasApplied(ab) == head + DeltasApplied(a[1..] + b);
      DeltasAppliedDistributes(a[1..], b);
      assert DeltasApplied(a) == head + DeltasApplied(a[1..]);
    }
  }

  lemma AppendedDistributes(a: seq<Effect>, b: seq<Effect>)
    ensures EventsAppended(a + b) == EventsAppended(a) + EventsAppended(b)
    ensures DeltasApplied(a + b) == DeltasApplied(a) + DeltasApplied(b)
  {
    EventsAppendedDistributes(a, b);
    DeltasAppliedDistributes(a, b);
  }

  /** `setPending(true)` and the submission; approve skips the flag. */
  function StartPart(action: Action): seq<Effect> {
    if action.ApproveAction? then [Submit(action)] else [SetPending(action.token, true), Submit(action)]
  }

  /** With a hash: the optimistic delta, the pending event, the receipt wait.
      Without one the `throw` comes before any optimistic change. */
  function OptimisticPart(wallet: Option<string>, action: Action, tempId: string, o: ChainOutcomes): seq<Effect> {
    if !HasHash(o) then []
    else
      var h := o.submit.hash.value;
      DeltaEffects(DeltaOf(action)) + [AppendEvent(PendingEvent(action, wallet, h, tempId)), AwaitReceipt(h)]
  }

  /** Refetch after the receipt: balances then events; approve only events. */
  function RefetchPart(action: Action): seq<Effect> {
    if action.ApproveAction? then [RefetchEvents] else [RefetchBalances, RefetchEvents]
  }

  /** The rest of the `try` block, or the `catch` block on any error. */
  function TailPart(wallet: Option<string>, action: Action, o: ChainOutcomes): seq<Effect> {
    if !(HasHash(o) && o.receiptOk) then [ResetBalanceOverlay, ResetEventOverlay]
    else if TruthyOpt(wallet) then RefetchPart(action)
    else []
  }

  function TraceOf(wallet: Option<string>, action: Action, tempId: string, o: ChainOutcomes): seq<Effect> {
    StartPart(action) + OptimisticPart(wallet, action, tempId, o) + TailPart(wallet, action, o)
      + [SetPending(action.token, false)]
  }

  lemma AppendedSingle(e: Effect)
    ensures EventsAppended([e]) == if e.AppendEvent? then [e.event] else []
    ensures DeltasApplied([e]) == if e.ApplyDelta? then [e.delta] else []
  {
    assert [e][1..] == [];
  }

  lemma AppendedPair(x: Effect, y: Effect)
    ensures EventsAppended([x, y]) == EventsAppended([x]) + EventsAppended([y])
    ensures DeltasApplied([x, y]) == DeltasApplied([x]) + DeltasApplied([y])
  {
    assert [x, y] == [x] + [y];
    AppendedDistributes([x], [y]);
  }

  /** Every effect matching `p` comes before every effect matching `q`. */
  predicate Before(t: seq<Effect>, p: Effect -> bool, q: Effect -> bool) {
    forall i, j :: 0 <= i < |t| && 0 <= j < |t| && p(t[i]) && q(t[j]) ==> i < j
  }

  lemma BeforeVacuous(a: seq<Effect>, p: Effect -> bool, q: Effect -> bool)
    requires (forall e :: e in a ==> !p(e)) || (forall e :: e in a ==> !q(e))
    ensures Before(a, p, q)
  {
  }

  /** Ordering survives concatenation when nothing in `b` must precede anything in `a`. */
  lemma BeforeConcat(a: seq<Effect>, b: seq<Effect>, p: Effect -> bool, q: Effect -> bool)
    requires Before(a, p, q) && Before(b, p, q)
    requires (forall e :: e in b ==> !p(e)) || (forall e :: e in a ==> !q(e))
    ensures Before(a + b, p, q)
  {
    forall i, j | 0 <= i < |a + b| && 0 <= j < |a + b| && p((a + b)[i]) && q((a + b)[j])
      ensures i < j
    {
      if i < |a| && j < |a| {
        assert (a + b)[i] == a[i] && (a + b)[j] == a[j];
      } else if i >= |a| && j >= |a| {
        assert (a + b)[i] == b[i - |a|] && (a + b)[j] == b[j - |a|];
      }
    }
  }

  lemma StartAppended(action: Action)
    ensures EventsAppended(StartPart(action)) == [] && DeltasApplied(StartPart(action)) == []
  {
    AppendedSingle(Submit(action));
    AppendedPair(SetPending(action.token, true), Submit(action));
    AppendedSingle(SetPending(action.token, true));
  }

  lemma TailAppended(wallet: Option<string>, action: Action, o: ChainOutcomes)
    ensures EventsAppended(TailPart(wallet, action, o)) == [] && DeltasApplied(TailPart(wallet, action, o)) == []
  {
    AppendedSingle(ResetBalanceOverlay);
    AppendedSingle(ResetEventOverlay);
    AppendedSingle(RefetchBalances);
    AppendedSingle(RefetchEvents);
    AppendedPair(ResetBalanceOverlay, ResetEventOverlay);
    AppendedPair(RefetchBalances, RefetchEvents);
  }

  lemma OptimisticAppended(wallet: Option<string>, action: Action, tempId: string, o: ChainOutcomes)
    ensures var op := OptimisticPart(wallet, action, tempId, o);
      && (!HasHash(o) ==> op == [])
      && (HasHash(o) ==>
        && EventsAppended(op) == [PendingEvent(action, wallet, o.submit.hash.value, tempId)]
        && DeltasApplied(op) == DeltaOf(action))
  {
    if HasHash(o) {
      var h := o.submit.hash.value;
      var ds := DeltaEffects(DeltaOf(action));
      var ev := AppendEvent(PendingEvent(action, wallet, h, tempId));
      AppendedDistributes(ds, [ev, AwaitReceipt(h)]);
      AppendedPair(ev, AwaitReceipt(h));
      AppendedSingle(ev);
      AppendedSingle(AwaitReceipt(h));
      if |ds| == 1 {
        AppendedSingle(ds[0]);
        assert ds == [ds[0]];
      }
    }
  }

  /** Appended events and deltas of the whole trace. */
  lemma AppendedParts(wallet: Option<string>, action: Action, tempId: string, o: ChainOutcomes)
    ensures var t := TraceOf(wallet, action, tempId, o);
      && (!HasHash(o) ==> EventsAppended(t) == [] && DeltasApplied(t) == [])
      && (HasHash(o) ==>
        && EventsAppended(t) == [PendingEvent(action, wallet, o.submit.hash.value, tempId)]
        && DeltasApplied(t) == DeltaOf(action))
  {
    var st := StartPart(action);
    var op := OptimisticPart(wallet, action, tempId, o);
    var tl := TailPart(wallet, action, o);
    var fin := SetPending(action.token, false);
    StartAppended(action);
    OptimisticAppended(wallet, action, tempId, o);
    TailAppended(wallet, action, o);
    AppendedSingle(fin);
    AppendedDistributes(st, op);
    AppendedDistributes(st + op, tl);
    AppendedDistributes(st + op + tl, [fin]);
  }

  lemma OptimisticOrdered(wallet: Option<string>, action: Action, tempId: string, o: ChainOutcomes)
    ensures Before(OptimisticPart(wallet, action, tempId, o), (e: Effect) => e.AppendEvent?, (e: Effect) => e.AwaitReceipt?)
  {
    var op := OptimisticPart(wallet, action, tempId, o);
    var p := (e: Effect) => e.AppendEvent?;
    var q := (e: Effect) => e.AwaitReceipt?;
    if HasHash(o) {
      var h := o.submit.hash.value;
      var ds := DeltaEffects(DeltaOf(action));
      var ev := AppendEvent(PendingEvent(action, wallet, h, tempId));
      BeforeVacuous(ds + [ev], p, q);
      BeforeVacuous([AwaitReceipt(h)], p, q);
      BeforeConcat(ds + [ev], [AwaitReceipt(h)], p, q);
      assert op == ds + [ev] + [AwaitReceipt(h)];
    } else {
      BeforeVacuous(op, p, q);
    }
  }

  lemma TailOrdered(wallet: Option<string>, action: Action, o: ChainOutcomes)
    ensures Before(TailPart(wallet, action, o), (e: Effect) => e == RefetchBalances, (e: Effect) => e == RefetchEvents)
  {
    var tl := TailPart(wallet, action, o);
    var p := (e: Effect) => e == RefetchBalances;
    var q := (e: Effect) => e == RefetchEvents;
    if tl == [RefetchBalances, RefetchEvents] {
      BeforeVacuous([RefetchBalances], p, q);
      BeforeVacuous([RefetchEvents], p, q);
      BeforeConcat([RefetchBalances], [RefetchEvents], p, q);
      assert tl == [RefetchBalances] + [RefetchEvents];
    } else {
      BeforeVacuous(tl, p, q);
    }
  }

  /** The three orderings of a trace, each by concatenating its phases. */
  lemma OrderingParts(wallet: Option<string>, action: Action, tempId: string, o: ChainOutcomes)
    ensures var t := TraceOf(wallet, action, tempId, o);
      && Before(t, (e: Effect) => e.AwaitReceipt?, (e: Effect) => e == RefetchBalances)
      && Before(t, (e: Effect) => e == RefetchBalances, (e: Effect) => e == RefetchEvents)
      && Before(t, (e: Effect) => e.AppendEvent?, (e: Effect) => e.AwaitReceipt?)
  {
    var st := StartPart(action);
    var op := OptimisticPart(wallet, action, tempId, o);
    var tl := TailPart(wallet, action, o);
    var en := [SetPending(action.token, false)];
    StartFacts(action);
    OptimisticFacts(wallet, action, tempId, o);
    TailFacts(wallet, action, o);
    OrderedPhases(st, op, tl, en, (e: Effect) => e.AwaitReceipt?, (e: Effect) => e == RefetchBalances);
    TailOrdered(wallet, action, o);
    OrderedPhases(st, op, tl, en, (e: Effect) => e == RefetchBalances, (e: Effect) => e == RefetchEvents);
    OptimisticOrdered(wallet, action, tempId, o);
    OrderedPhases(st, op, tl, en, (e: Effect) => e.AppendEvent?, (e: Effect) => e.AwaitReceipt?);
  }

  /** Four phases, each ordered, with nothing in a later phase that must precede
      something in an earlier one. */
  lemma OrderedPhases(st: seq<Effect>, op: seq<Effect>, tl: seq<Effect>, en: seq<Effect>, p: Effect -> bool, q: Effect -> bool)
    requires forall e :: e in st ==> e.SetPending? || e.Submit?
    requires forall e :: e in op ==> e.ApplyDelta? || e.AppendEvent? || e.AwaitReceipt?
    requires forall e :: e in tl ==> !e.SetPending? && !e.Submit? && !e.ApplyDelta? && !e.AppendEvent? && !e.AwaitReceipt?
    requires forall e :: e in en ==> e.SetPending?
    requires forall e: Effect :: p(e) ==> !e.SetPending? && !e.Submit?
    requires forall e: Effect :: q(e) ==> !e.SetPending? && !e.Submit? && !e.ApplyDelta?
    requires (forall e: Effect :: p(e) ==> e.AppendEvent? || e.AwaitReceipt?) || (forall e: Effect :: q(e) ==> !e.AppendEvent? && !e.AwaitReceipt?)
    requires Before(op, p, q) && Before(tl, p, q)
    ensures Before(st + op + tl + en, p, q)
  {
    BeforeVacuous(st, p, q);
    BeforeVacuous(en, p, q);
    BeforeConcat(st, op, p, q);
    BeforeConcat(st + op, tl, p, q);
    BeforeConcat(st + op + tl, en, p, q);
  }

  /** Which effects occur in a trace, and how it starts and ends. */
  lemma MembershipParts(wallet: Option<string>, action: Action, tempId: string, o: ChainOutcomes)
    ensures var t := TraceOf(wallet, action, tempId, o);
      && |t| >= 2
      && t[|t| - 1] == SetPending(action.token, false)
      && (!action.ApproveAction? ==> t[0] == SetPending(action.token, true) && t[1] == Submit(action))
      && (action.ApproveAction? ==> t[0] == Submit(action))
      && (action.ApproveAction? ==> forall e :: e in t && e.SetPending? ==> !e.on)
      && ((ResetBalanceOverlay in t) <==> !(HasHash(o) && o.receiptOk))
      && ((ResetEventOverlay in t) <==> !(HasHash(o) && o.receiptOk))
      && ((RefetchEvents in t) <==> HasHash(o) && o.receiptOk && TruthyOpt(wallet))
      && ((RefetchBalances in t) <==> HasHash(o) && o.receiptOk && TruthyOpt(wallet) && !action.ApproveAction?)
  {
    var st := StartPart(action);
    var op := OptimisticPart(wallet, action, tempId, o);
    var tl := TailPart(wallet, action, o);
    var en := [SetPending(action.token, false)];
    var t := TraceOf(wallet, action, tempId, o);
    StartFacts(action);
    OptimisticFacts(wallet, action, tempId, o);
    TailFacts(wallet, action, o);
    MembershipCompose(st, op, tl, SetPending(action.token, false));
  }

  lemma StartFacts(action: Action)
    ensures var st := StartPart(action);
      && |st| >= 1
      && (!action.ApproveAction? ==> |st| == 2 && st[0] == SetPending(action.token, true) && st[1] == Submit(action))
      && (action.ApproveAction? ==> st == [Submit(action)])
      && (forall e :: e in st ==> e.SetPending? || e.Submit?)
  {
  }

  lemma OptimisticFacts(wallet: Option<string>, action: Action, tempId: string, o: ChainOutcomes)
    ensures forall e :: e in OptimisticPart(wallet, action, tempId, o) ==> e.ApplyDelta? || e.AppendEvent? || e.AwaitReceipt?
  {
  }

  lemma TailFacts(wallet: Option<string>, action: Action, o: ChainOutcomes)
    ensures var tl := TailPart(wallet, action, o);
      && (forall e :: e in tl ==> !e.SetPending?)
      && ((ResetBalanceOverlay in tl) <==> !(HasHash(o) && o.receiptOk))
      && ((ResetEventOverlay in tl) <==> !(HasHash(o) && o.receiptOk))
      && ((RefetchEvents in tl) <==> HasHash(o) && o.receiptOk && TruthyOpt(wallet))
      && ((RefetchBalances in tl) <==> HasHash(o) && o.receiptOk && TruthyOpt(wallet) && !action.ApproveAction?)
  {
  }

  lemma MembershipCompose(st: seq<Effect>, op: seq<Effect>, tl: seq<Effect>, fin: Effect)
    requires |st| >= 1 && fin.SetPending?
    requires forall e :: e in st ==> e.SetPending? || e.Submit?
    requires forall e :: e in op ==> e.ApplyDelta? || e.AppendEvent? || e.AwaitReceipt?
    ensures var t := st + op + tl + [fin];
      && |t| >= 2
      && t[|t| - 1] == fin
      && t[0] == st[0]
      && (|st| >= 2 ==> t[1] == st[1])
      && (forall e :: e in t ==> (e in st || e in op || e in tl || e == fin))
      && (forall e: Effect :: e.RefetchBalances? || e.RefetchEvents? || e.ResetBalanceOverlay? || e.ResetEventOverlay? ==>
            (e in t <==> e in tl))
  {
  }

  /** `handleMint` / `handleTransfer` / `handleApprove` as the effects they perform. */
  function HandlerTrace(wallet: Option<string>, action: Action, tempId: string, o: ChainOutcomes): (t: seq<Effect>)
    ensures |t| >= 2
    // `finally`: every path ends by clearing the token's pending flag
    ensures t[|t| - 1] == SetPending(action.token, false)
    // mint and transfer raise the flag before anything else; approve never raises it
    ensures !action.ApproveAction? ==> t[0] == SetPending(action.token, true) && t[1] == Submit(action)
    ensures action.ApproveAction? ==> t[0] == Submit(action)
    ensures action.ApproveAction? ==> forall e :: e in t && e.SetPending? ==> !e.on
    // no hash: no optimistic change at all
    ensures !HasHash(o) ==> EventsAppended(t) == [] && DeltasApplied(t) == []
    // a hash: exactly one pending event, keyed by the hash, and one delta for mint/transfer
    ensures HasHash(o) ==>
      && |EventsAppended(t)| == 1
      && EventsAppended(t)[0].id == o.submit.hash.value
      && EventsAppended(t)[0].transactionHash == o.submit.hash.value
      && EventsAppended(t)[0].status == Pending
      && EventsAppended(t)[0].token == action.token
      && DeltasApplied(t) == DeltaOf(action)
    // any error resets both overlays; success resets neither
    ensures (ResetBalanceOverlay in t) <==> !(HasHash(o) && o.receiptOk)
    ensures (ResetEventOverlay in t) <==> !(HasHash(o) && o.receiptOk)
    // refetch only after a receipt and with a wallet; approve refetches events only
    ensures (RefetchEvents in t) <==> HasHash(o) && o.receiptOk && TruthyOpt(wallet)
    ensures (RefetchBalances in t) <==> HasHash(o) && o.receiptOk && TruthyOpt(wallet) && !action.ApproveAction?
    // the receipt is awaited before any refetch; balances are refetched before events
    ensures Before(t, (e: Effect) => e.AwaitReceipt?, (e: Effect) => e == RefetchBalances)
    ensures Before(t, (e: Effect) => e == RefetchBalances, (e: Effect) => e == RefetchEvents)
    // the pending event is visible before the receipt wait
    ensures Before(t, (e: Effect) => e.AppendEvent?, (e: Effect) => e.AwaitReceipt?)
  {
    AppendedParts(wallet, action, tempId, o);
    OrderingParts(wallet, action, tempId, o);
    MembershipParts(wallet, action, tempId, o);
    TraceOf(wallet, action, tempId, o)
  }

  // ---------------------------------------------------------------------------
  // Interpreting the effects

  function SetPendingFlag(st: Store, token: Token, on: bool): Store {
    if token == DAI then st.(daiPending := on) else st.(usdcPending := on)
  }

  function PendingOf(st: Store, token: Token): bool {
    if token == DAI then st.daiPending else st.usdcPending
  }

  /** One effect applied to the store. */
  function Step(st: Store, e: Effect, wallet: Option<string>, o: ChainOutcomes, fmt: Formatter): Store {
    match e
    case SetPending(token, on) => SetPendingFlag(st, token, on)
    case Submit(_) => st
    case ApplyDelta(d) => st.(balanceOverlay := st.balanceOverlay + [d])
    case AppendEvent(ev) => st.(history := SetOptimisticEvents(st.history, ev))
    case AwaitReceipt(_) => st
    case RefetchBalances =>
      var r := FetchTokenBalances(st.balances, wallet, o.balanceRead, fmt);
      st.(balances := r.state, errorMessage := if r.reportedError.Some? then r.reportedError else st.errorMessage)
    case RefetchEvents => st.(history := FetchEvents(st.history, wallet, o.logs, fmt))
    case ResetBalanceOverlay => st.(balanceOverlay := [])
    case ResetEventOverlay => st.(history := ResetOptimisticEvents(st.history))
  }

  function Replay(st: Store, t: seq<Effect>, wallet: Option<string>, o: ChainOutcomes, fmt: Formatter): Store
    decreases |t|
  {
    if |t| == 0 then st else Replay(Step(st, t[0], wallet, o, fmt), t[1..], wallet, o, fmt)
  }

  lemma {:induction false} ReplayAppend(st: Store, a: seq<Effect>, b: seq<Effect>, wallet: Option<string>, o: ChainOutcomes, fmt: Formatter)
    ensures Replay(st, a + b, wallet, o, fmt) == Replay(Replay(st, a, wallet, o, fmt), b, wallet, o, fmt)
    decreases |a|
  {
    if |a| == 0 {
      assert a + b == b;
    } else {
      assert (a + b)[1..] == a[1..] + b;
      ReplayAppend(Step(st, a[0], wallet, o, fmt), a[1..], b, wallet, o, fmt);
    }
  }

  /** One full handler run: the store it leaves behind and the effects it made. */
  datatype Run = Run(store: Store, trace: seq<Effect>)

  function Execute(st: Store, wallet: Option<string>, action: Action, tempId: string, o: ChainOutcomes, fmt: Formatter): (r: Run)
    // the run performs exactly the effects the handler trace describes
    ensures r.trace == HandlerTrace(wallet, action, tempId, o)
    // `finally`: whatever the outcome, the handled token is not pending afterwards
    ensures !PendingOf(r.store, action.token)
  {
    var t := TraceOf(wallet, action, tempId, o);
    var pre := StartPart(action) + OptimisticPart(wallet, action, tempId, o) + TailPart(wallet, action, o);
    assert t == pre + [SetPending(action.token, false)];
    ReplayAppend(st, pre, [SetPending(action.token, false)], wallet, o, fmt);
    ReplaySingle(Replay(st, pre, wallet, o, fmt), SetPending(action.token, false), wallet, o, fmt);
    Run(Replay(st, t, wallet, o, fmt), t)
  }

  lemma ReplaySingle(st: Store, e: Effect, wallet: Option<string>, o: ChainOutcomes, fmt: Formatter)
    ensures Replay(st, [e], wallet, o, fmt) == Step(st, e, wallet, o, fmt)
  {
    assert [e][1..] == [];
  }

  /** Replaying `a` followed by the effects `x` then `y`. */
  lemma ReplayThen2(st: Store, a: seq<Effect>, x: Effect, y: Effect, wallet: Option<string>, o: ChainOutcomes, fmt: Formatter)
    ensures Replay(st, a + [x] + [y], wallet, o, fmt)
         == Step(Step(Replay(st, a, wallet, o, fmt), x, wallet, o, fmt), y, wallet, o, fmt)
  {
    ReplayAppend(st, a + [x], [y], wallet, o, fmt);
    ReplayAppend(st, a, [x], wallet, o, fmt);
    ReplaySingle(Replay(st, a, wallet, o, fmt), x, wallet, o, fmt);
    ReplaySingle(Replay(st, a + [x], wallet, o, fmt), y, wallet, o, fmt);
  }

  /** On any error both overlays are back at the confirmed state, and nothing
      confirmed has changed. */
  lemma ErrorRollsBack(st: Store, wallet: Option<string>, action: Action, tempId: string, o: ChainOutcomes, fmt: Formatter)
    requires !(HasHash(o) && o.receiptOk)
    ensures Execute(st, wallet, action, tempId, o, fmt).store.balanceOverlay == []
    ensures Execute(st, wallet, action, tempId, o, fmt).store.history.optimisticEvents
         == Execute(st, wallet, action, tempId, o, fmt).store.history.events
         == st.history.events
    ensures Execute(st, wallet, action, tempId, o, fmt).store.balances == st.balances
  {
    var pre := StartPart(action) + OptimisticPart(wallet, action, tempId, o);
    StartFacts(action);
    OptimisticFacts(wallet, action, tempId, o);
    assert TailPart(wallet, action, o) == [ResetBalanceOverlay] + [ResetEventOverlay];
    assert TraceOf(wallet, action, tempId, o)
        == pre + [ResetBalanceOverlay] + [ResetEventOverlay] + [SetPending(action.token, false)];
    RollbackReplay(st, pre, action.token, wallet, o, fmt);
  }

  /** Replaying a refetch-free prefix, both resets and the final flag clear. */
  lemma RollbackReplay(st: Store, pre: seq<Effect>, token: Token, wallet: Option<string>, o: ChainOutcomes, fmt: Formatter)
    requires RefetchBalances !in pre && RefetchEvents !in pre
    ensures var r := Replay(st, pre + [ResetBalanceOverlay] + [ResetEventOverlay] + [SetPending(token, false)], wallet, o, fmt);
      && r.balanceOverlay == []
      && r.history.optimisticEvents == r.history.events == st.history.events
      && r.balances == st.balances
  {
    var fin := SetPending(token, false);
    ReplayAppend(st, pre + [ResetBalanceOverlay] + [ResetEventOverlay], [fin], wallet, o, fmt);
    ReplaySingle(Replay(st, pre + [ResetBalanceOverlay] + [ResetEventOverlay], wallet, o, fmt), fin, wallet, o, fmt);
    ReplayThen2(st, pre, ResetBalanceOverlay, ResetEventOverlay, wallet, o, fmt);
    ConfirmedUntouched(st, pre, wallet, o, fmt);
  }

  /** No refetch effect: the confirmed lists and balances stay as they were. */
  lemma {:induction false} ConfirmedUntouched(st: Store, t: seq<Effect>, wallet: Option<string>, o: ChainOutcomes, fmt: Formatter)
    requires RefetchBalances !in t && RefetchEvents !in t
    ensures Replay(st, t, wallet, o, fmt).history.events == st.history.events
    ensures Replay(st, t, wallet, o, fmt).balances == st.balances
    decreases |t|
  {
    if |t| > 0 {
      assert t[0] in t;
      assert forall e :: e in t[1..] ==> e in t;
      ConfirmedUntouched(Step(st, t[0], wallet, o, fmt), t[1..], wallet, o, fmt);
    }
  }

  /** Without a reset, the balance overlay only grows, by the trace's deltas in
      order; a balance refetch leaves it alone. */
  lemma {:induction false} OverlayAccumulates(st: Store, t: seq<Effect>, wallet: Option<string>, o: ChainOutcomes, fmt: Formatter)
    requires ResetBalanceOverlay !in t
    ensures Replay(st, t, wallet, o, fmt).balanceOverlay == st.balanceOverlay + DeltasApplied(t)
    decreases |t|
  {
    if |t| == 0 {
      assert st.balanceOverlay + [] == st.balanceOverlay;
    } else {
      assert t[0] in t;
      assert forall e :: e in t[1..] ==> e in t;
      var s1 := Step(st, t[0], wallet, o, fmt);
      var head := if t[0].ApplyDelta? then [t[0].delta] else [];
      assert s1.balanceOverlay == st.balanceOverlay + head;
      OverlayAccumulates(s1, t[1..], wallet, o, fmt);
      assert DeltasApplied(t) == head + DeltasApplied(t[1..]);
    }
  }

  /** A confirmed run keeps its optimistic delta: neither the card nor the
      refetch resets the balance overlay on success, so it ends one delta
      longer for a mint or transfer and unchanged for an approve. */
  lemma SuccessKeepsBalanceDelta(st: Store, wallet: Option<string>, action: Action, tempId: string, o: ChainOutcomes, fmt: Formatter)
    requires HasHash(o) && o.receiptOk
    ensures Execute(st, wallet, action, tempId, o, fmt).store.balanceOverlay == st.balanceOverlay + DeltaOf(action)
  {
    var t := HandlerTrace(wallet, action, tempId, o);
    OverlayAccumulates(st, t, wallet, o, fmt);
  }

  // ---------------------------------------------------------------------------
  // Invariants every effect keeps

  /** No event in either list is marked `Failed`. */
  predicate NoFailedEvents(h: HistoryState) {
    (forall e :: e in h.events ==> e.status != Failed)
    && (forall e :: e in h.optimisticEvents ==> e.status != Failed)
  }

  /** The store invariant: no `Failed` events, and the overlay extends the confirmed list. */
  predicate Consistent(st: Store) {
    NoFailedEvents(st.history) && OverlayExtendsConfirmed(st.history)
  }

  /** A trace never appends a `Failed` event. */
  predicate AppendsNoFailed(t: seq<Effect>) {
    forall k :: 0 <= k < |t| && t[k].AppendEvent? ==> t[k].event.status != Failed
  }

  lemma StepConsistent(st: Store, e: Effect, wallet: Option<string>, o: ChainOutcomes, fmt: Formatter)
    requires Consistent(st)
    requires e.AppendEvent? ==> e.event.status != Failed
    ensures Consistent(Step(st, e, wallet, o, fmt))
  {
    match e
    case AppendEvent(ev) =>
      var h' := SetOptimisticEvents(st.history, ev);
      assert h'.optimisticEvents == st.history.optimisticEvents + [ev];
    case RefetchEvents =>
      var h' := FetchEvents(st.history, wallet, o.logs, fmt);
      assert forall x :: x in h'.events ==> x.status == Success by {
        if TruthyOpt(wallet) && o.logs.LogsFetched? {
          assert forall x :: x in h'.events ==> WellFormed(wallet.value, x);
        }
      }
    case _ =>
  }

  lemma {:induction false} ReplayConsistent(st: Store, t: seq<Effect>, wallet: Option<string>, o: ChainOutcomes, fmt: Formatter)
    requires Consistent(st)
    requires AppendsNoFailed(t)
    ensures Consistent(Replay(st, t, wallet, o, fmt))
    decreases |t|
  {
    if |t| > 0 {
      StepConsistent(st, t[0], wallet, o, fmt);
      assert AppendsNoFailed(t[1..]) by {
        forall k | 0 <= k < |t[1..]| && t[1..][k].AppendEvent?
          ensures t[1..][k].event.status != Failed
        {
          assert t[1..][k] == t[k + 1];
        }
      }
      ReplayConsistent(Step(st, t[0], wallet, o, fmt), t[1..], wallet, o, fmt);
    }
  }

  /** No handler run ever marks an event `Failed`, and the event overlay stays an
      extension of the confirmed list. */
  lemma ExecuteKeepsConsistent(st: Store, wallet: Option<string>, action: Action, tempId: string, o: ChainOutcomes, fmt: Formatter)
    requires Consistent(st)
    ensures Consistent(Execute(st, wallet, action, tempId, o, fmt).store)
  {
    var t := HandlerTrace(wallet, action, tempId, o);
    assert AppendsNoFailed(t) by {
      forall k | 0 <= k < |t| && t[k].AppendEvent?
        ensures t[k].event.status != Failed
      {
        AppendedMember(t, k);
      }
    }
    ReplayConsistent(st, t, wallet, o, fmt);
  }

  lemma {:induction false} AppendedMember(t: seq<Effect>, k: nat)
    requires k < |t| && t[k].AppendEvent?
    ensures t[k].event in EventsAppended(t)
    decreases |t|
  {
    if k > 0 {
      AppendedMember(t[1..], k - 1);
    }
  }

  /** After a receipt and a successful refetch with a wallet, the overlay equals
      the freshly ingested list: no pending entry survives. */
  lemma SuccessConverges(st: Store, wallet: string, action: Action, tempId: string, o: ChainOutcomes, fmt: Formatter)
    requires wallet != "" && HasHash(o) && o.receiptOk && o.logs.LogsFetched?
    ensures Execute(st, Some(wallet), action, tempId, o, fmt).store.history.optimisticEvents
         == Execute(st, Some(wallet), action, tempId, o, fmt).store.history.events
         == IngestEvents(wallet, o.logs.dai, o.logs.usdc, fmt)
    ensures forall e :: e in Execute(st, Some(wallet), action, tempId, o, fmt).store.history.events ==> e.status == Success
  {
    var w := Some(wallet);
    var t := HandlerTrace(w, action, tempId, o);
    var pre := StartPart(action) + OptimisticPart(w, action, tempId, o)
      + (if action.ApproveAction? then [] else [RefetchBalances]);
    assert t == pre + [RefetchEvents] + [SetPending(action.token, false)];
    ReplayThen2(st, pre, RefetchEvents, SetPending(action.token, false), w, o, fmt);
  }

  // ---------------------------------------------------------------------------
  // Form routing and button state

  /** The shape of the submitted form object: which keys are present. */
  datatype FormData = FormData(amount: Option<string>, address: Option<string>, allowance: Option<string>)

  /** `handleMintAction`: an amount and no address. */
  function MintRoute(fd: FormData, selected: Token): (r: Option<Action>)
    ensures r.Some? <==> fd.amount.Some? && fd.address.None?
    ensures r.Some? ==> r.value == MintAction(fd.amount.value, selected)
  {
    if fd.amount.Some? && fd.address.None? then Some(MintAction(fd.amount.value, selected)) else None
  }

  /** `handleTransferAction`: amount and address, no allowance. */
  function TransferRoute(fd: FormData, selected: Token): (r: Option<Action>)
    ensures r.Some? <==> fd.amount.Some? && fd.address.Some? && fd.allowance.None?
    ensures r.Some? ==> r.value == TransferAction(fd.address.value, fd.amount.value, selected)
  {
    if fd.amount.Some? && fd.address.Some? && fd.allowance.None? then
      Some(TransferAction(fd.address.value, fd.amount.value, selected))
    else None
  }

  /** `handleApproveAction`: allowance and address. */
  function ApproveRoute(fd: FormData, selected: Token): (r: Option<Action>)
    ensures r.Some? <==> fd.allowance.Some? && fd.address.Some?
    ensures r.Some? ==> r.value == ApproveAction(fd.address.value, fd.allowance.value, selected)
  {
    if fd.allowance.Some? && fd.address.Some? then
      Some(ApproveAction(fd.address.value, fd.allowance.value, selected))
    else None
  }

  /** No form object is routed to two handlers, and each form's own shape reaches
      its own handler. */
  lemma RoutesExclusive(fd: FormData, t: Token, amount: string, address: string, allowance: string)
    ensures !(MintRoute(fd, t).Some? && TransferRoute(fd, t).Some?)
    ensures !(MintRoute(fd, t).Some? && ApproveRoute(fd, t).Some?)
    ensures !(TransferRoute(fd, t).Some? && ApproveRoute(fd, t).Some?)
    ensures MintRoute(FormData(Some(amount), None, None), t) == Some(MintAction(amount, t))
    ensures TransferRoute(FormData(Some(amount), Some(address), None), t) == Some(TransferAction(address, amount, t))
    ensures ApproveRoute(FormData(None, Some(address), Some(allowance)), t) == Some(ApproveAction(address, allowance, t))
  {
  }

  /** The `disabled` prop of the three buttons. */
  function ButtonsDisabled(isWrongNetwork: bool, transitionPending: bool, selected: Token, daiPending: bool, usdcPending: bool): (r: bool)
    ensures !r ==> !isWrongNetwork && !transitionPending
    ensures !r ==> !(if selected == DAI then daiPending else usdcPending)
    ensures isWrongNetwork || transitionPending ==> r
    ensures !isWrongNetwork && !transitionPending && !(if selected == DAI then daiPending else usdcPending) ==> !r
  {
    isWrongNetwork || transitionPending || (if selected == DAI then daiPending else usdcPending)
  }

  /** The `tokenDecimals` prop: 18 for DAI, 6 otherwise -- the token's configured precision. */
  function ButtonDecimals(selected: Token): (r: nat)
    ensures r == Decimals(selected)
  {
    if selected == DAI then 18 else 6
  }

  /** While a mint or transfer for the selected token runs, its buttons are disabled. */
  lemma PendingDisablesButtons(st: Store, wallet: Option<string>, action: Action, tempId: string, o: ChainOutcomes, fmt: Formatter, wrong: bool, transition: bool)
    requires !action.ApproveAction?
    ensures var s1 := Step(st, SetPending(action.token, true), wallet, o, fmt);
            ButtonsDisabled(wrong, transition, action.token, s1.daiPending, s1.usdcPending)
  {
  }

  /** Once a run on the right network has finished, with no transition in
      progress, the buttons for the handled token are enabled again. */
  lemma ButtonsEnabledAfterRun(st: Store, wallet: Option<string>, action: Action, tempId: string, o: ChainOutcomes, fmt: Formatter)
    ensures var s := Execute(st, wallet, action, tempId, o, fmt).store;
            !ButtonsDisabled(false, false, action.token, s.daiPending, s.usdcPending)
  {
  }
}

=== FILE: seqs.dfy ===
/** Order-preserving filtering and counting over sequences, used by every
    list view of the core (`Array.prototype.filter`, the chart counters). */
module Seqs {

  /** `xs.filter(p)`. */
  function Filter<T>(p: T -> bool, xs: seq<T>): (r: seq<T>)
    ensures |r| <= |xs|
    ensures forall x :: x in r ==> x in xs && p(x)
    decreases |xs|
  {
    if |xs| == 0 then []
    else (if p(xs[0]) then [xs[0]] else []) + Filter(p, xs[1..])
  }

  /** Filter keeps exactly the elements that satisfy the predicate. */
  lemma {:induction false} FilterMembership<T>(p: T -> bool, xs: seq<T>, x: T)
    ensures x in Filter(p, xs) <==> x in xs && p(x)
    decreases |xs|
  {
    if |xs| > 0 {
      FilterMembership(p, xs[1..], x);
      assert xs == [xs[0]] + xs[1..];
    }
  }

  /** `sub` can be obtained from `xs` by deleting elements, keeping order. */
  predicate IsSubsequence<T(==)>(sub: seq<T>, xs: seq<T>)
    decreases |xs|
  {
    if |sub| == 0 then true
    else if |xs| == 0 then false
    else (sub[0] == xs[0] && IsSubsequence(sub[1..], xs[1..])) || IsSubsequence(sub, xs[1..])
  }

  /** Filtering never reorders: the output is a subsequence of the input. */
  lemma {:induction false} FilterIsSubsequence<T>(p: T -> bool, xs: seq<T>)
    ensures IsSubsequence(Filter(p, xs), xs)
    decreases |xs|
  {
    if |xs| > 0 {
      FilterIsSubsequence(p, xs[1..]);
      var rest := Filter(p, xs[1..]);
      if p(xs[0]) {
        assert Filter(p, xs) == [xs[0]] + rest;
        assert ([xs[0]] + rest)[1..] == rest;
      } else {
        assert Filter(p, xs) == rest;
        if |rest| > 0 {
          assert IsSubsequence(rest, xs);
        }
      }
    }
  }

  /** Filtering with a predicate every element meets changes nothing. */
  lemma {:induction false} FilterAll<T>(p: T -> bool, xs: seq<T>)
    requires forall i :: 0 <= i < |xs| ==> p(xs[i])
    ensures Filter(p, xs) == xs
    decreases |xs|
  {
    if |xs| > 0 {
      FilterAll(p, xs[1..]);
      assert xs == [xs[0]] + xs[1..];
    }
  }

  /** Filtering with a predicate no element meets gives the empty list. */
  lemma {:induction false} FilterNone<T>(p: T -> bool, xs: seq<T>)
    requires forall i :: 0 <= i < |xs| ==> !p(xs[i])
    ensures Filter(p, xs) == []
    decreases |xs|
  {
    if |xs| > 0 {
      FilterNone(p, xs[1..]);
    }
  }

  /** Filtering twice with the same predicate is filtering once. */
  lemma {:induction false} FilterIdempotent<T>(p: T -> bool, xs: seq<T>)
    ensures Filter(p, Filter(p, xs)) == Filter(p, xs)
  {
    var r := Filter(p, xs);
    forall i | 0 <= i < |r|
      ensures p(r[i])
    {
      assert r[i] in r;
    }
    FilterAll(p, r);
  }

  /** Filter distributes over concatenation. */
  lemma {:induction false} FilterAppend<T>(p: T -> bool, xs: seq<T>, ys: seq<T>)
    ensures Filter(p, xs + ys) == Filter(p, xs) + Filter(p, ys)
    decreases |xs|
  {
    if |xs| == 0 {
      assert xs + ys == ys;
    } else {
      assert (xs + ys)[0] == xs[0];
      assert (xs + ys)[1..] == xs[1..] + ys;
      FilterAppend(p, xs[1..], ys);
    }
  }

  /** Filtering keeps every copy of a satisfying element and no copy of any other. */
  lemma {:induction false} FilterMultiplicity<T>(p: T -> bool, xs: seq<T>, x: T)
    ensures multiset(Filter(p, xs))[x] == if p(x) then multiset(xs)[x] else 0
    decreases |xs|
  {
    if |xs| > 0 {
      FilterMultiplicity(p, xs[1..], x);
      assert xs == [xs[0]] + xs[1..];
      assert multiset(xs) == multiset([xs[0]]) + multiset(xs[1..]);
    }
  }

  /** Number of elements satisfying `p`. */
  function Count<T>(p: T -> bool, xs: seq<T>): (n: nat)
    ensures n <= |xs|
    decreases |xs|
  {
    if |xs| == 0 then 0 else (if p(xs[0]) then 1 else 0) + Count(p, xs[1..])
  }

  /** A count is the length of the corresponding filter. */
  lemma {:induction false} CountIsFilterLength<T>(p: T -> bool, xs: seq<T>)
    ensures Count(p, xs) == |Filter(p, xs)|
    decreases |xs|
  {
    if |xs| > 0 {
      CountIsFilterLength(p, xs[1..]);
    }
  }

  /** Counting one more element at the end. */
  lemma {:induction false} CountSnoc<T>(p: T -> bool, xs: seq<T>, x: T)
    ensures Count(p, xs + [x]) == Count(p, xs) + (if p(x) then 1 else 0)
    decreases |xs|
  {
    if |xs| == 0 {
      assert xs + [x] == [x];
    } else {
      assert (xs + [x])[1..] == xs[1..] + [x];
      CountSnoc(p, xs[1..], x);
    }
  }
}

=== FILE: token_actions.dfy ===
/** The balance store (`stores/slices/tokenActionsSlice.ts`): per-token balance
    records, the balance-fetch state machine, the error-message precedence,
    the selected token and the transaction state. */
module TokenActions {
  import opened JsText
  import opened Tokens

  datatype TokenBalance = TokenBalance(balance: string, symbol: string, loading: bool, error: Option<string>)

  /** `TransactionState` of `types/global.ts`. */
  datatype TransactionState = TransactionState(loading: bool, error: Option<string>, success: bool, txHash: Option<string>)

  datatype TokenActionsState = TokenActionsState(
    selectedToken: Token,
    daiBalance: TokenBalance,
    usdcBalance: TokenBalance,
    transactionState: TransactionState)

  const ClearedTransaction: TransactionState := TransactionState(false, None, false, None)

  const InitialTokenActions: TokenActionsState := TokenActionsState(
    DAI,
    TokenBalance("", Symbol(DAI), true, None),
    TokenBalance("", Symbol(USDC), true, None),
    ClearedTransaction)

  function BalanceOf(s: TokenActionsState, t: Token): TokenBalance {
    if t == DAI then s.daiBalance else s.usdcBalance
  }

  /** The initial store: DAI selected, both balances blank and loading, no error,
      cleared transaction state. */
  lemma InitialStateShape()
    ensures InitialTokenActions.selectedToken == DAI
    ensures forall t: Token :: BalanceOf(InitialTokenActions, t) == TokenBalance("", Symbol(t), true, None)
    ensures InitialTokenActions.transactionState == TransactionState(false, None, false, None)
  {
  }

  // ---------------------------------------------------------------------------
  // What a `catch` clause can receive, and the message derived from it

  /** A property of a thrown object: absent, a string, or some other value. */
  datatype Field = Absent | Str(s: string) | NotAString

  /** A thrown value: an `Error` instance, a string, another non-null object,
      or anything else (`null`, a number, `undefined`, ...). */
  datatype Thrown =
    | ErrorInstance(errorMessage: string)
    | StringThrown(text: string)
    | ObjectThrown(shortMessage: Field, message: Field)
    | OtherThrown

  const BalanceErrorPrefix: string := "Failed to fetch token balances: "
  const UnknownBalanceError: string := "Unknown error fetching balances"

  /** The first applicable source of detail, in precedence order. */
  function ErrorDetail(e: Thrown): (r: Option<string>)
    // no detail only for a thrown value with no string to report
    ensures r.None? <==> e.OtherThrown? || (e.ObjectThrown? && !e.shortMessage.Str? && !e.message.Str?)
    // a string shortMessage always wins over the message
    ensures e.ObjectThrown? && e.shortMessage.Str? ==> r == Some(e.shortMessage.s)
    ensures e.ObjectThrown? && !e.shortMessage.Str? && e.message.Str? ==> r == Some(e.message.s)
  {
    match e
    case ErrorInstance(m) => Some(m)
    case StringThrown(s) => Some(s)
    case ObjectThrown(sm, m) =>
      if sm.Str? then Some(sm.s) else if m.Str? then Some(m.s) else None
    case OtherThrown => None
  }

  /** The message handed to the global error surface when a balance read fails. */
  function BalanceErrorMessage(e: Thrown): (r: string)
    ensures r == UnknownBalanceError <==> ErrorDetail(e).None?
    ensures ErrorDetail(e).Some? ==> r == BalanceErrorPrefix + ErrorDetail(e).value
  {
    if e.ErrorInstance? then BalanceErrorPrefix + e.errorMessage
    else if e.StringThrown? then BalanceErrorPrefix + e.text
    else if e.ObjectThrown? && e.shortMessage.Str? then BalanceErrorPrefix + e.shortMessage.s
    else if e.ObjectThrown? && e.message.Str? then BalanceErrorPrefix + e.message.s
    else UnknownBalanceError
  }

  /** An object's `shortMessage` wins over its `message`, and a message that is
      not a string is ignored. */
  lemma ShortMessagePrecedence(sm: string, m: Field)
    ensures BalanceErrorMessage(ObjectThrown(Str(sm), m)) == BalanceErrorPrefix + sm
    ensures BalanceErrorMessage(ObjectThrown(NotAString, Str(sm))) == BalanceErrorPrefix + sm
    ensures BalanceErrorMessage(ObjectThrown(Absent, NotAString)) == UnknownBalanceError
  {
  }

  // ---------------------------------------------------------------------------
  // fetchTokenBalances

  /** What the two `balanceOf` reads produced. */
  datatype ReadOutcome = BalancesRead(daiRaw: nat, usdcRaw: nat) | ReadFailed(thrown: Thrown)

  /** The store after a fetch, and the message passed to `setError`, if any. */
  datatype FetchResult = FetchResult(state: TokenActionsState, reportedError: Option<string>)

  /** The disconnected branch: both balances read `'0'`, not loading, no error. */
  function Disconnected(s: TokenActionsState): (r: TokenActionsState)
    ensures forall t: Token :: BalanceOf(r, t) == TokenBalance("0", Symbol(t), false, None)
    ensures r.selectedToken == s.selectedToken && r.transactionState == s.transactionState
  {
    s.(daiBalance := TokenBalance("0", Symbol(DAI), false, None),
       usdcBalance := TokenBalance("0", Symbol(USDC), false, None))
  }

  /** Entering a fetch: both tokens loading, errors cleared, balances kept. */
  function BeginFetch(s: TokenActionsState): (r: TokenActionsState)
    ensures forall t: Token ::
      BalanceOf(r, t) == BalanceOf(s, t).(loading := true, error := None)
    ensures r.selectedToken == s.selectedToken && r.transactionState == s.transactionState
  {
    s.(daiBalance := s.daiBalance.(loading := true, error := None),
       usdcBalance := s.usdcBalance.(loading := true, error := None))
  }

  /** `fetchTokenBalances(walletAddress)` from start to end. */
  function FetchTokenBalances(s: TokenActionsState, wallet: Option<string>, outcome: ReadOutcome, fmt: Formatter): (r: FetchResult)
    // the selection and the transaction state are never touched
    ensures r.state.selectedToken == s.selectedToken && r.state.transactionState == s.transactionState
    // no fetch leaves a token loading
    ensures forall t: Token :: !BalanceOf(r.state, t).loading
    ensures !TruthyOpt(wallet) ==>
      r.reportedError.None? && forall t: Token :: BalanceOf(r.state, t) == TokenBalance("0", Symbol(t), false, None)
    ensures TruthyOpt(wallet) && outcome.BalancesRead? ==>
      && r.reportedError.None?
      && BalanceOf(r.state, DAI) == TokenBalance(fmt(outcome.daiRaw, Decimals(DAI)), Symbol(DAI), false, None)
      && BalanceOf(r.state, USDC) == TokenBalance(fmt(outcome.usdcRaw, Decimals(USDC)), Symbol(USDC), false, None)
    // a failure keeps the (stale) balance strings and marks both tokens failed
    ensures TruthyOpt(wallet) && outcome.ReadFailed? ==>
      && r.reportedError == Some(BalanceErrorMessage(outcome.thrown))
      && forall t: Token :: BalanceOf(r.state, t) == BalanceOf(s, t).(loading := false, error := Some("Failed"))
  {
    if !TruthyOpt(wallet) then
      FetchResult(Disconnected(s), None)
    else
      var loading := BeginFetch(s);
      match outcome
      case BalancesRead(daiRaw, usdcRaw) =>
        FetchResult(
          loading.(daiBalance := TokenBalance(fmt(daiRaw, Decimals(DAI)), Symbol(DAI), false, None),
                   usdcBalance := TokenBalance(fmt(usdcRaw, Decimals(USDC)), Symbol(USDC), false, None)),
          None)
      case ReadFailed(thrown) =>
        FetchResult(
          loading.(daiBalance := loading.daiBalance.(loading := false, error := Some("Failed")),
                   usdcBalance := loading.usdcBalance.(loading := false, error := Some("Failed"))),
          Some(BalanceErrorMessage(thrown)))
  }

  /** A failed fetch never blanks a balance that was shown before it. */
  lemma FailedFetchKeepsBalances(s: TokenActionsState, wallet: string, thrown: Thrown, fmt: Formatter, t: Token)
    requires wallet != ""
    ensures BalanceOf(FetchTokenBalances(s, Some(wallet), ReadFailed(thrown), fmt).state, t).balance
            == BalanceOf(BeginFetch(s), t).balance
            == BalanceOf(s, t).balance
  {
  }

  /** A successful fetch depends only on the chain values, not on prior state. */
  lemma FetchSuccessForgetsPast(s1: TokenActionsState, s2: TokenActionsState, wallet: string, dai: nat, usdc: nat, fmt: Formatter)
    requires wallet != ""
    requires s1.selectedToken == s2.selectedToken && s1.transactionState == s2.transactionState
    ensures FetchTokenBalances(s1, Some(wallet), BalancesRead(dai, usdc), fmt)
         == FetchTokenBalances(s2, Some(wallet), BalancesRead(dai, usdc), fmt)
  {
  }

  // ---------------------------------------------------------------------------
  // Selection and transaction state

  /** `setSelectedToken(token)`: only the selection changes. */
  function SetSelectedToken(s: TokenActionsState, t: Token): (r: TokenActionsState)
    ensures r.selectedToken == t
    ensures r.daiBalance == s.daiBalance && r.usdcBalance == s.usdcBalance
    ensures r.transactionState == s.transactionState
  {
    s.(selectedToken := t)
  }

  /** `resetTransactionState()`: the cleared record, everything else unchanged. */
  function ResetTransactionState(s: TokenActionsState): (r: TokenActionsState)
    ensures r.transactionState == TransactionState(false, None, false, None)
    ensures r.selectedToken == s.selectedToken
    ensures r.daiBalance == s.daiBalance && r.usdcBalance == s.usdcBalance
  {
    s.(transactionState := ClearedTransaction)
  }

  /** Resetting twice is resetting once, and selecting a token does not disturb it. */
  lemma ResetTransactionStateIdempotent(s: TokenActionsState, t: Token)
    ensures ResetTransactionState(ResetTransactionState(s)) == ResetTransactionState(s)
    ensures ResetTransactionState(SetSelectedToken(s, t)) == SetSelectedToken(ResetTransactionState(s), t)
  {
  }
}

=== FILE: tokens.dfy ===
/** The token configuration and the event record shared by the stores,
    the orchestrator and the views. */
module Tokens {

  /** The two supported tokens. */
  datatype Token = DAI | USDC

  datatype EventType = Mint | Transfer | Approve

  datatype Status = Pending | Success | Failed

  /** `TokenEvent` of the history store: one row of the transaction history. */
  datatype TokenEvent = TokenEvent(
    amount: string,
    from: string,
    id: string,
    to: string,
    status: Status,
    token: Token,
    transactionHash: string,
    eventType: EventType)

  /** Ingestion walks the tokens in this order. */
  const TokenOrder: seq<Token> := [DAI, USDC]

  function Symbol(t: Token): (r: string)
    ensures |r| > 0
  {
    match t
    case DAI => "DAI"
    case USDC => "USDC"
  }

  function ContractAddress(t: Token): string {
    match t
    case DAI => "0x1D70D57ccD2798323232B2dD027B3aBcA5C00091"
    case USDC => "0xC891481A0AaC630F4D89744ccD2C7D2C4215FD47"
  }

  function Decimals(t: Token): nat {
    match t
    case DAI => 18
    case USDC => 6
  }

  /** A transfer from this exact string is a mint. */
  const ZeroAddress: string := "0x0000000000000000000000000000000000000000"

  /** `formatUnits(raw, decimals)` of the chain client: not part of this model,
      so every operation that formats takes it as a parameter. */
  type Formatter = (nat, nat) -> string
}

=== FILE: transactions_page.dfy ===
/** The filter of the transaction history page (`app/transactions/page.tsx`)
    and the Reset Filters button of the shared filter bar
    (`components/shared/FilterBar.tsx`). The page itself imports its filter bar
    from `components/reusable/filter-bar`, which is not part of this model; the
    reset modelled here is the shared component's. */
module TransactionsPage {
  import opened JsText
  import opened Seqs

  /** One row of the page's transaction list. */
  datatype Transaction = Transaction(
    id: string,
    txType: string,
    amount: string,
    from: string,
    to: string,
    timestamp: string,
    status: string)

  /** The four filter controls: the search box, two selects and the tab. */
  datatype Filters = Filters(search: string, typeValue: string, statusValue: string, activeTab: string)

  const All: string := "all"

  const InitialFilters: Filters := Filters("", All, All, All)

  /** Case-insensitive substring search over the two addresses. */
  predicate MatchesSearch(t: Transaction, search: string) {
    Includes(ToLower(t.from), ToLower(search)) || Includes(ToLower(t.to), ToLower(search))
  }

  predicate MatchesType(t: Transaction, f: Filters) {
    f.typeValue == All || t.txType == f.typeValue
  }

  predicate MatchesStatus(t: Transaction, f: Filters) {
    f.statusValue == All || t.status == f.statusValue
  }

  predicate MatchesTab(t: Transaction, f: Filters) {
    f.activeTab == All || t.txType == f.activeTab
  }

  predicate Matches(f: Filters, t: Transaction) {
    MatchesSearch(t, f.search) && MatchesType(t, f) && MatchesStatus(t, f) && MatchesTab(t, f)
  }

  function OfFilters(f: Filters): Transaction -> bool {
    (t: Transaction) => Matches(f, t)
  }

  /** `filteredTransactions`. */
  function FilterTransactions(txs: seq<Transaction>, f: Filters): (r: seq<Transaction>)
    ensures |r| <= |txs|
    ensures forall t :: t in r ==> t in txs && Matches(f, t)
  {
    Filter(OfFilters(f), txs)
  }

  /** A transaction is shown iff it is in the list and passes all four filters;
      every copy of it is kept, the order is that of the list, and filtering
      again changes nothing. */
  lemma FilterTransactionsExactly(txs: seq<Transaction>, f: Filters, t: Transaction)
    ensures t in FilterTransactions(txs, f) <==> t in txs && Matches(f, t)
    ensures IsSubsequence(FilterTransactions(txs, f), txs)
    ensures FilterTransactions(FilterTransactions(txs, f), f) == FilterTransactions(txs, f)
    ensures multiset(FilterTransactions(txs, f))[t] == if Matches(f, t) then multiset(txs)[t] else 0
    ensures |FilterTransactions(txs, f)| == Count(OfFilters(f), txs)
  {
    FilterMultiplicity(OfFilters(f), txs, t);
    CountIsFilterLength(OfFilters(f), txs);
    FilterMembership(OfFilters(f), txs, t);
    FilterIsSubsequence(OfFilters(f), txs);
    FilterIdempotent(OfFilters(f), txs);
  }

  /** The empty search matches every transaction; the search ignores case. */
  lemma SearchProperties(t: Transaction, search: string)
    ensures MatchesSearch(t, "")
    ensures MatchesSearch(t, search) <==> MatchesSearch(t, ToLower(search))
  {
    IncludesEmpty(ToLower(t.from));
    assert ToLower("") == "";
    ToLowerIdempotent(search);
  }

  /** A type select and a tab that name two different types exclude everything. */
  lemma ConflictingTypeAndTab(txs: seq<Transaction>, f: Filters)
    requires f.typeValue != All && f.activeTab != All && f.typeValue != f.activeTab
    ensures FilterTransactions(txs, f) == []
  {
    FilterNone(OfFilters(f), txs);
  }

  /** The Reset Filters button: search, type and status back to their defaults; the tab is not its concern. */
  function ResetFilters(f: Filters): (r: Filters)
    ensures r.search == "" && r.typeValue == All && r.statusValue == All
    ensures r.activeTab == f.activeTab
  {
    f.(search := "", typeValue := All, statusValue := All)
  }

  /** After a reset on the 'all' tab every transaction is listed again, in order. */
  lemma ResetShowsEverything(txs: seq<Transaction>, f: Filters)
    requires f.activeTab == All
    ensures FilterTransactions(txs, ResetFilters(f)) == txs
  {
    var g := ResetFilters(f);
    forall i | 0 <= i < |txs|
      ensures Matches(g, txs[i])
    {
      SearchProperties(txs[i], "");
    }
    FilterAll(OfFilters(g), txs);
  }

  /** The initial filters are the reset ones on the 'all' tab. */
  lemma InitialIsReset(f: Filters)
    ensures ResetFilters(f.(activeTab := All)) == InitialFilters
  {
  }
}

=== FILE: tx_info.dfy ===
/** The transaction detail panel of `components/TransactionInfoContent.tsx`:
    which rows and sections it shows for an event, the status badge, the
    explorer link and the abbreviated transaction hash. */
module TransactionInfo {
  import opened JsText
  import opened Tokens

  /** The event shape the panel receives; `from` and `transactionHash` are optional. */
  datatype InfoEvent = InfoEvent(
    eventType: EventType,
    status: Status,
    token: Token,
    amount: string,
    from: Option<string>,
    id: string,
    transactionHash: Option<string>)

  /** The fields of the fetched transaction the panel looks at. */
  datatype TxData = TxData(from: Option<string>, to: Option<string>)

  datatype BadgeVariant = Destructive | Secondary

  const ExplorerBase: string := "https://sepolia.etherscan.io/tx/"

  /** The transaction lookup only runs for an event with a non-empty hash. */
  function QueryEnabled(event: Option<InfoEvent>): (r: bool)
    // the lookup needs a selected event with a non-empty hash to look up
    ensures r ==> event.Some? && event.value.transactionHash.Some? && |event.value.transactionHash.value| > 0
    ensures event.Some? && event.value.transactionHash.Some? && event.value.transactionHash.value != "" ==> r
  {
    event.Some? && TruthyOpt(event.value.transactionHash)
  }

  /** First 8 characters, `...`, last 6 characters, with `substring` clamping. */
  function AbbreviateHash(h: string): (r: string)
    ensures |h| >= 8 ==> |r| == 17 && r == h[..8] + "..." + h[|h| - 6..]
    ensures |h| <= 6 ==> r == h + "..." + h
    ensures |r| <= 2 * |h| + 3
  {
    Substring(h, 0, 8) + "..." + SubstringFrom(h, |h| - 6)
  }

  /** Any hash longer than 17 characters is displayed shorter, keeping its
      first 8 and last 6 characters. */
  lemma AbbreviationShortens(h: string)
    requires |h| > 17
    ensures |AbbreviateHash(h)| < |h|
    ensures AbbreviateHash(h)[..8] == h[..8]
    ensures AbbreviateHash(h)[11..] == h[|h| - 6..]
  {
  }

  /** The hash link: full hash when toggled, the abbreviation otherwise. */
  datatype HashSection = HashSection(href: string, text: string, toggleLabel: string)

  datatype InfoView =
    | NoEventSelected
    | Details(
        typeText: EventType,
        badge: BadgeVariant,
        fromRow: Option<string>,
        recipientRow: Option<string>,
        spenderRow: Option<string>,
        hashSection: Option<HashSection>,
        lookupSection: bool,
        eventId: string)

  function HashSectionOf(h: string, showFull: bool): (r: HashSection)
    ensures r.href == ExplorerBase + h
    ensures showFull ==> r.text == h && r.toggleLabel == "Show Less"
    ensures !showFull ==> r.text == AbbreviateHash(h) && r.toggleLabel == "Show More"
  {
    HashSection(ExplorerBase + h, if showFull then h else AbbreviateHash(h), if showFull then "Show Less" else "Show More")
  }

  /** The toggle changes only the text and its label: the link always points at
      the explorer page of the full hash, and the full text is the hash itself,
      which the collapsed text shortens once it is longer than 17 characters. */
  lemma ToggleKeepsLink(h: string)
    ensures HashSectionOf(h, true).href == HashSectionOf(h, false).href
    ensures HashSectionOf(h, true).href[..|ExplorerBase|] == ExplorerBase
    ensures HashSectionOf(h, true).href[|ExplorerBase|..] == h
    ensures HashSectionOf(h, true).text == h
    ensures HashSectionOf(h, true).toggleLabel != HashSectionOf(h, false).toggleLabel
    ensures |h| > 17 ==> |HashSectionOf(h, false).text| < |HashSectionOf(h, true).text|
    ensures |h| >= 8 ==> HashSectionOf(h, false).text[..8] == h[..8]
  {
    assert (ExplorerBase + h)[|ExplorerBase|..] == h;
    assert (ExplorerBase + h)[..|ExplorerBase|] == ExplorerBase;
    if |h| > 17 {
      AbbreviationShortens(h);
    }
  }

  /** `present`: the value of a truthy optional field. */
  function Shown(cond: bool, value: Option<string>): Option<string> {
    if cond && TruthyOpt(value) then value else None
  }

  /** The rendered panel for the selected event, the lookup result and the toggle. */
  function RenderInfo(event: Option<InfoEvent>, txData: Option<TxData>, showFull: bool): (v: InfoView)
    ensures event.None? <==> v == NoEventSelected
    ensures event.Some? ==> v.Details? && v.eventId == event.value.id && v.typeText == event.value.eventType
    ensures event.Some? ==> (v.badge == Destructive <==> event.value.status == Failed)
    // the From row shows the event's own sender, but only for a transfer whose lookup has a sender
    ensures event.Some? ==> (v.fromRow.Some? <==>
      event.value.eventType == Transfer && txData.Some? && TruthyOpt(txData.value.from))
    ensures event.Some? && v.fromRow.Some? ==> v.fromRow.value == event.value.from.GetOr("")
    ensures event.Some? ==> (v.recipientRow.Some? <==>
      event.value.eventType == Transfer && txData.Some? && TruthyOpt(txData.value.to))
    ensures event.Some? ==> (v.spenderRow.Some? <==>
      event.value.eventType == Approve && txData.Some? && TruthyOpt(txData.value.to))
    ensures event.Some? && v.recipientRow.Some? ==> v.recipientRow == txData.value.to
    ensures event.Some? && v.spenderRow.Some? ==> v.spenderRow == txData.value.to
    // the hash link and the lookup section appear iff the event has a hash
    ensures event.Some? ==> (v.hashSection.Some? <==> TruthyOpt(event.value.transactionHash))
    ensures event.Some? ==> (v.lookupSection <==> TruthyOpt(event.value.transactionHash))
    ensures event.Some? && v.hashSection.Some? ==>
      v.hashSection.value == HashSectionOf(event.value.transactionHash.value, showFull)
  {
    match event
    case None => NoEventSelected
    case Some(e) =>
      var isTransfer := e.eventType == Transfer;
      var isApprove := e.eventType == Approve;
      var txFrom := if txData.Some? then txData.value.from else None;
      var txTo := if txData.Some? then txData.value.to else None;
      Details(
        e.eventType,
        if e.status == Failed then Destructive else Secondary,
        if isTransfer && TruthyOpt(txFrom) then Some(e.from.GetOr("")) else None,
        Shown(isTransfer, txTo),
        Shown(isApprove, txTo),
        if TruthyOpt(e.transactionHash) then Some(HashSectionOf(e.transactionHash.value, showFull)) else None,
        TruthyOpt(e.transactionHash),
        e.id)
  }

  /** The lookup runs exactly when the panel has a hash section to show it in, and
      no event shows both a recipient and a spender. */
  lemma QueryMatchesSections(event: Option<InfoEvent>, txData: Option<TxData>, showFull: bool)
    ensures var v := RenderInfo(event, txData, showFull);
      QueryEnabled(event) <==> v.Details? && v.hashSection.Some? && v.lookupSection
    ensures var v := RenderInfo(event, txData, showFull);
      v.Details? ==> !(v.recipientRow.Some? && v.spenderRow.Some?)
  {
  }
}

=== FILE: utils.dfy ===
/** `middleEllipsis` of `lib/utils.ts`: the shortened address shown in lists. */
module Utils {
  import opened JsText

  const Ellipsis: string := "..."

  /** `middleEllipsis(str, len)`: `''` for the empty string, otherwise `0x`, the
      `len` characters after the first two, `...`, and the last `len` characters,
      with `substring`'s clamping for out-of-range `len`. */
  function MiddleEllipsis(str: string, len: int): (r: string)
    ensures str == "" ==> r == ""
    // the prefix is always `0x`, whatever `str` starts with, and `...` always follows it
    ensures str != "" ==> |r| >= 5 && r[..2] == "0x"
    ensures str != "" ==> Includes(r, Ellipsis)
    ensures str != "" ==> |r| <= 2 * |str| + 5
    // in range: exactly the two ends of the input around the ellipsis
    ensures str != "" && 0 <= len && len + 2 <= |str| ==>
      && |r| == 2 * len + 5
      && r[2..len + 2] == str[2..len + 2]
      && r[len + 2..len + 5] == Ellipsis
      && r[len + 5..] == str[|str| - len..]
  {
    if str == "" then ""
    else
      var head := Substring(str, 2, len + 2);
      var tail := Substring(str, |str| - len, |str|);
      var r := "0x" + head + Ellipsis + tail;
      assert Ellipsis <= r[2 + |head|..];
      IncludesAt(r, Ellipsis, 2 + |head|);
      r
  }

  /** In range, the abbreviation determines the shown ends of the input: two
      inputs abbreviate alike iff they agree on those characters. */
  lemma MiddleEllipsisKeepsEnds(a: string, b: string, len: nat)
    requires a != "" && b != "" && len + 2 <= |a| && len + 2 <= |b|
    ensures MiddleEllipsis(a, len) == MiddleEllipsis(b, len)
        <==> a[2..len + 2] == b[2..len + 2] && a[|a| - len..] == b[|b| - len..]
  {
    var ra := MiddleEllipsis(a, len);
    var rb := MiddleEllipsis(b, len);
    if a[2..len + 2] == b[2..len + 2] && a[|a| - len..] == b[|b| - len..] {
      assert ra == ra[..2] + ra[2..len + 2] + ra[len + 2..len + 5] + ra[len + 5..];
      assert rb == rb[..2] + rb[2..len + 2] + rb[len + 2..len + 5] + rb[len + 5..];
    }
  }
}
